=== FILE: README.md ===
# Alternating-bit transport and the HuntCin session, in Dafny

This project models a small Python repository built around one protocol: the
alternating-bit stop-and-wait ARQ that the code calls "RDT 3.0", running over
UDP. It appears in five near-identical variants:

- the HuntCin game server (`HuntCin/server.py`);
- the two HuntCin clients (`HuntCin/clients.py`, `HuntCin/client.py`);
- a file-echo client and server (`RDT_3.0/client.py`, `RDT_3.0/server.py`).

On top of the HuntCin transport runs a small multiplayer treasure hunt. Players
log in, get a cell on a 3x3 grid, store one move per timed round, may ask once
for a hint or a suggestion, and score when they stand on the treasure at the
end of a round.

The modules, one per file:

| module | file | what it is |
|---|---|---|
| `Common` | common.dfy | `Option`, the one-bit sequence numbers |
| `Text` | text.dfy | decimal numbers, `strip()`, `split()`, `" ".join()`, ASCII `lower()` |
| `Codec` | codec.dfy | `make_pkt`, `extract_pkt` (three ways of reporting a bad packet), `make_ack` |
| `Channel` | channel.dfy | one peer's engine: the three receive loops and the retrying send |
| `AlternatingBit` | alternating_bit.dfy | sender plus receiver over a lossy, duplicating FIFO link; the in-order, exactly-once theorem |
| `ConcurrentSends` | concurrent_sends.dfy | two overlapping sends to one peer, as `broadcast_message` allows |
| `Game` | game.dfy | grid, moves, the one-axis clue |
| `Session` | session.dfy | the server's client table, the command handler, round start and resolution |
| `ClientApp` | client_app.dfy | the `clients.py` login flag and its local command filter |
| `FileTransfer` | file_transfer.dfy | the `RDT_3.0` chunked send loop, counters, and the size-guarded receive loop |
| `LockOrder` | lock_order.dfy | the order in which the server handler takes its locks |

Everything is pure: datatypes and functions, with lemmas over finite event
traces. Threads, timeouts and loss simulation only decide which event happens
next. Each handler runs atomically. Datagrams and payloads are strings, one
character per byte.

Behaviour of the code that the model follows and a reader might not expect:

- `logout` is accepted whether or not the peer is online.
- `login` has no "already online" error. Logging in again under one's own name
  is refused as "name in use".
- `move` stores any direction. An unknown one is only reported at the round's end.
- The hint and suggestion flags are reset at login, never per round.
- The treasure is drawn again at the start of every round, whether or not
  someone found it.
- `hint` and `suggest` spend their flag before checking that a round is running.
- A clue names one axis only (vertical first). A suggestion carries no distance.

## Model

| member | source | states |
|---|---|---|
| Text.DecimalRoundTrip | HuntCin/server.py:31-45 | `int(str(n))` gives back `n` for every natural number |
| Text.SplitJoin | HuntCin/server.py:213-222 | splitting a text made of words joined by single blanks gives back exactly those words |
| Text.WordsOfJoin | HuntCin/server.py:213 | `split()` of a single-blank join of blank-free words is the word list |
| Codec.MakePkt | HuntCin/server.py:31-33 | a data packet always contains the separator and is never equal to an ACK token |
| Codec.MakeAck | RDT_3.0/client.py:29-31 | `make_ack` gives `ACK0` exactly for 0 and `ACK1` for every other value |
| Codec.AckToken | HuntCin/server.py:162-163 | a datagram is an ACK token exactly when it equals `ACK0` or `ACK1`, and it names the bit that `make_ack` spells that way |
| Codec.Find | HuntCin/server.py:37 | `find` returns -1 exactly when the character is absent, else the index of its first occurrence |
| Codec.Parse | HuntCin/server.py:35-45 | no separator, or a data packet exactly when the text before the first separator is a decimal number, and then the number and the rest of the packet |
| Codec.ExtractHunt | HuntCin/clients.py:32-40 | `(None, packet)` exactly for packets that are not well-formed data, and the parsed number and payload for those that are |
| Codec.ExtractClient | HuntCin/client.py:41-47 | `(None, None)` exactly for packets that are not well-formed data, and the parsed number and payload for those that are |
| Codec.ExtractRdt | RDT_3.0/server.py:20-29 | -1 exactly when there is no separator, -2 exactly when the prefix is not a number, with the packet returned in both cases; otherwise the parsed number and payload |
| Codec.ParseMakePkt | HuntCin/server.py:31-45 | parsing a packet built from any number and any payload, one containing `\|` included, gives back both |
| Codec.HuntRoundTrip | HuntCin/server.py:31-45 | `extract_pkt(make_pkt(n, d)) == (n, d)` in the server's reporting |
| Codec.ClientRoundTrip | HuntCin/client.py:38-47 | the same round trip in the `client.py` reporting |
| Codec.RdtRoundTrip | RDT_3.0/client.py:14-27 | the same round trip in the `RDT_3.0` reporting |
| Codec.MakePktInjective | HuntCin/clients.py:29-30 | different numbers or payloads never give the same packet |
| Codec.AckTokensAreNotData | RDT_3.0/server.py:20-23 | an ACK token has no separator, so the `RDT_3.0` parser reports -1 for it |
| Codec.MakeAckSpellsBit | RDT_3.0/client.py:83 | `'ACK' + bit`, which the sender compares against, is exactly `make_ack(bit)`, and the token names that bit |
| Channel.ReceiveHunt | HuntCin/server.py:159-195 | an ACK token only sets its own event; a malformed packet causes nothing; the expected bit is acknowledged, flipped and delivered once; any other number re-acknowledges `1 - expected` |
| Channel.ReceiveAckAlways | HuntCin/client.py:84-100 | every parsable data packet is acknowledged with its own number before the duplicate check; only the expected bit delivers and flips |
| Channel.ReceiveRdt | RDT_3.0/server.py:70-94 | the expected bit is acknowledged, delivered and flipped; a duplicate or a -2 packet re-acknowledges `1 - expected`; a -1 packet causes no reply |
| Channel.ReceiversAgreeOnBits | HuntCin/client.py:92-100 | the two HuntCin receive loops behave identically on every packet whose number is 0 or 1 |
| Channel.ReceiversDifferOffBits | HuntCin/client.py:95 | they differ on a number outside {0, 1}: `2\|x` while expecting 1 is answered `ACK0` by one and `ACK1` by the other |
| Channel.ReplayOnlyReAcks | HuntCin/server.py:181-195 | replaying a delivered packet any number of times only repeats its ACK: no second delivery, no change of state |
| Channel.SendStart | HuntCin/server.py:101-117 | a send reads the current bit, clears that bit's event only, and transmits the packet tagged with it |
| Channel.AwaitAck | HuntCin/server.py:119-131 | a wait succeeds exactly when the event of the pending bit is set, and then flips the send bit; otherwise the same payload goes out again under the same bit |
| Channel.ReceiveAll | HuntCin/server.py:162-170 | after a batch of datagrams the event of a bit is set exactly when it was set before or that bit's ACK token arrived |
| Channel.SendRounds | HuntCin/clients.py:68-84 | the retry loop succeeds exactly when some round brought its ACK, flips the bit exactly then, and retransmits only the identical packet |
| Channel.ReliableSend | HuntCin/server.py:93-131 | a whole reliable send transmits at least once, only the packet of its bit, and flips the bit exactly when it succeeds |
| AlternatingBit.NextKeeps | HuntCin/server.py:93-195 | every event (send, wait, arrival, loss or duplication of a datagram) keeps the protocol invariant |
| AlternatingBit.RunKeeps | HuntCin/server.py:93-195 | the invariant holds after any finite trace of events |
| AlternatingBit.DeliversPrefixInOrder | HuntCin/clients.py:61-135 | for every sender and receiver variant and every trace, the receiving application has been handed exactly the first messages, in order, each once, and every send that reported success is among them |
| AlternatingBit.BlockingSenderStallsAfterLoss | RDT_3.0/client.py:79-92 | as written, once the only data packet is lost no event changes anything: sender and receiver wait for ever |
| AlternatingBit.TimeoutRetransmits | RDT_3.0/client.py:90-92 | with a receive timeout, every wait that ends during a send transmits the packet again |
| AlternatingBit.TimeoutRecoversFromLoss | RDT_3.0/client.py:70-92 | with a receive timeout, the loss that stalls the blocking sender is recovered from and the message is delivered |
| ConcurrentSends.ConcurrentSendsLoseMessage | HuntCin/server.py:198-203 | two overlapping sends to one peer both report success while only the first message is delivered, and the bits are left out of step |
| Game.Delta | HuntCin/server.py:335-345 | a step exists exactly for the four direction names; it is a unit step along one axis, `up` and `down` vertical and `right` and `left` horizontal, each with its own sign |
| Game.MoveFrom | HuntCin/server.py:327-353 | an unknown direction is reported as invalid; an off-grid target leaves the player where it is; otherwise the player lands exactly on its cell plus the direction's step, which is on the grid |
| Game.MoveStaysInGrid | HuntCin/server.py:347-352 | resolution never takes a player off the grid |
| Game.WallBounceAtStart | HuntCin/server.py:347-349 | from the start cell (1,1), `left` and `down` leave the player there and `right` moves it to (2,1) |
| Game.ClueFor | HuntCin/server.py:275-285 | the clue is "on the treasure" exactly on the treasure, and vertical exactly when the rows differ |
| Game.ClueLeadsToTreasure | HuntCin/server.py:302-312 | following the suggested move from any cell stays on the grid and brings the player one step closer to a treasure elsewhere |
| Session.Ensure | HuntCin/server.py:76-91 | afterwards a record exists for the address; an existing record is untouched; a new one is offline on (1,1) with both bits 0, no flag set |
| Session.EnsureIdempotent | HuntCin/server.py:76-91 | ensuring a record twice is ensuring it once |
| Session.CommandOf | HuntCin/server.py:214-316 | no words means nothing to do; `login` with at least one more word is a login under the non-empty single-blank join of those words; `move` with exactly one more word is a move in that word lower-cased, whatever it is; `logout`, `hint` and `suggest` in any case are those commands |
| Session.CommandCases | HuntCin/server.py:219-316 | the full dispatch table on the lower-cased keyword, in both directions: in particular a command is unknown exactly for another keyword, a bare `login`, or a `move` without exactly one argument |
| Session.ParseJoin | HuntCin/server.py:213-216 | a message made of words joined by single blanks is dispatched on exactly those words |
| Session.DoLogin | HuntCin/server.py:221-236 | while an online player holds the name the request is refused and nothing changes; otherwise the peer goes online on (1,1) under that name, with flags and stored move cleared and its score created at 0 without overwriting an existing one (rejections in the corrected reply order, see "Left out") |
| Session.DoLogout | HuntCin/server.py:241-248 | taken even when offline: the peer goes offline and its stored move is cleared; it is told, and every other online peer is notified |
| Session.DoMove | HuntCin/server.py:250-258 | an offline peer is refused and nothing changes; an online one has its stored move replaced, position untouched (rejections in the corrected reply order, see "Left out") |
| Session.DoHelp | HuntCin/server.py:260-313 | refused offline or when already used, with nothing changed; otherwise the flag is spent even when no round is running, and the clue is the one for the current position (rejections in the corrected reply order, see "Left out") |
| Session.Dispatch | HuntCin/server.py:205-316 | a command only touches the sender's record and the scores, never its channel state; replies go only to the sender; nothing is sent exactly for an empty message |
| Session.Handle | HuntCin/server.py:205-216 | the same for a raw message after `ensure_client_state`, and only a login moves the player |
| Session.Receive | HuntCin/server.py:159-192 | one datagram from a peer: its record exists afterwards, and when the channel step delivers a text the table and the output are exactly those of the handler run on it |
| Session.RetransmissionHandledOnce | HuntCin/server.py:181-195 | a retransmission of a delivered command is only acknowledged again: the command is not carried out twice |
| Session.UndeliveredKeepsTable | HuntCin/server.py:162-179 | a datagram that delivers nothing and leaves the peer's bits alone changes nothing in the table and sends nothing |
| Session.StartRound | HuntCin/server.py:359-366 | the round number grows by one, the new treasure is set, every stored move is cleared, and the online peers are told |
| Session.ApplyMoves | HuntCin/server.py:376-386 | every online player with a stored move ends where that move takes it; nothing else about any player, and nothing outside the table, changes |
| Session.ResolveRound | HuntCin/server.py:370-409 | the moves are applied and no score decreases; the status goes first; with winners on the treasure come exactly the treasure notice and the scoreboard; without, no score changes and the idle players are named exactly when there are some, the move results given exactly when any move was stored, and nothing else is sent |
| Session.Verdicts | HuntCin/server.py:403-408 | the round-without-winners notices: the idle players exactly when there are any, the results exactly when there are some, and nothing else |
| Session.InitialWellFormed | HuntCin/server.py:63-67 | the empty table satisfies the table invariant |
| Session.EnsureKeepsWellFormed | HuntCin/server.py:76-91 | creating a record keeps the invariant: every online player has a name with a score, positions on the grid, at most one online holder per name |
| Session.LoginKeepsWellFormed | HuntCin/server.py:221-236 | a login keeps the invariant, in particular name uniqueness among online players |
| Session.LogoutKeepsWellFormed | HuntCin/server.py:241-248 | a logout keeps the invariant |
| Session.MoveKeepsWellFormed | HuntCin/server.py:250-258 | a stored move keeps the invariant |
| Session.HelpKeepsWellFormed | HuntCin/server.py:260-313 | a hint or suggestion keeps the invariant |
| Session.DispatchKeepsWellFormed | HuntCin/server.py:205-316 | every command keeps the invariant |
| Session.HandleKeepsWellFormed | HuntCin/server.py:205-216 | every raw message keeps the invariant |
| Session.ReceiveKeepsWellFormed | HuntCin/server.py:159-192 | every datagram keeps the invariant |
| Session.StartRoundKeepsWellFormed | HuntCin/server.py:359-366 | starting a round keeps the invariant |
| Session.ResolveRoundKeepsWellFormed | HuntCin/server.py:370-409 | resolving a round keeps the invariant |
| Session.AddWinsOnce | HuntCin/server.py:396-400 | adding the wins of winners with distinct, already scored names adds one point to each of those names and nothing else |
| Session.WinnersScoreOnce | HuntCin/server.py:391-400 | each online player on the treasure gains exactly one point and every other score is unchanged |
| Session.ReloginRefused | HuntCin/server.py:223-227 | logging in again under one's own name while online is refused as a name in use |
| Session.NameFreedByLogout | HuntCin/server.py:241-245 | once its holder logs out, another peer can log in under the same name |
| Session.CommandsDoNotMove | HuntCin/server.py:205-316 | across any run of messages between two rounds with no login among them, no known player changes position and no score changes |
| Session.LatestMoveWins | HuntCin/server.py:256 | of two moves in a round, the later one is the one stored |
| Session.HintSpentWithoutGame | HuntCin/server.py:260-270 | a hint asked while no round is running is answered "no game" and still spends the hint |
| ClientApp.OnText | HuntCin/clients.py:129-133 | a text that strips and lower-cases to the login confirmation logs in and keeps the name; one that starts with the logout confirmation logs out and forgets the name; any other text changes nothing |
| ClientApp.OnPacket | HuntCin/clients.py:116-135 | one datagram through the receive loop: the channel step is the `clients.py` receiver's, and a delivered text goes through the login bookkeeping |
| ClientApp.UndeliveredKeepsLogin | HuntCin/clients.py:109-135 | an ACK token, a malformed packet or a packet under the other bit leaves the flag and the name as they were |
| ClientApp.PacketAppliedOnce | HuntCin/clients.py:121-135 | a text under the expected bit is applied once and acknowledged; the same packet again is only re-acknowledged and changes nothing |
| ClientApp.ConfirmationPacketLogsInOnce | HuntCin/clients.py:121-130 | the login confirmation packet logs the client in, and a retransmission of it changes nothing more |
| ClientApp.Decide | HuntCin/clients.py:147-196 | a blank line does nothing; `exit` sends a farewell `logout` exactly when logged in; `login` needs a name and sends `login` plus the typed words, remembering their join; `logout` needs the login flag and clears it; any other command while logged out is refused; a `move` with two words whose second is one of the four directions is sent as `move <direction>` with the state unchanged, and any other `move` is refused with the usage notice; only `exit` quits; `hint` and `suggest` are sent as themselves; anything else is refused as unknown; only what is sent changes the state |
| ClientApp.SentWordsParse | HuntCin/clients.py:159-194 | every text the client sends is a command the server parses as meant: a login under the remembered name, a move in one of the four directions, or a bare keyword; and the server reads it exactly as it would read the typed words themselves |
| ClientApp.SentTextParses | HuntCin/clients.py:144-194 | the same for a typed line as a whole |
| ClientApp.LoginParses | HuntCin/clients.py:163-165 | `login` followed by words is parsed by the server as a login under those words |
| ClientApp.MoveParses | HuntCin/clients.py:184-187 | `move` followed by a direction is parsed by the server as that move |
| ClientApp.OnlineConfirmationLogsIn | HuntCin/clients.py:129-130 | the server's login confirmation sets the flag and keeps the name |
| ClientApp.LogoutConfirmationLogsOut | HuntCin/clients.py:131-133 | the server's logout confirmation clears the flag and the name |
| ClientApp.FirstCharacterDecides | HuntCin/clients.py:129-133 | a text whose first character is neither blank nor `v` nor `l` in any case leaves the login state alone |
| ClientApp.OtherRepliesKeepLogin | HuntCin/clients.py:129-133 | no reply other than the two confirmations changes the login state |
| ClientApp.NoticesKeepLogin | HuntCin/clients.py:129-133 | no join, leave or round notice changes the login state |
| FileTransfer.Chunks | RDT_3.0/client.py:62-69 | the pieces of `read(1024)` are non-empty, full except the last, one per started KiB, and together exactly the file |
| FileTransfer.SendAttempt | RDT_3.0/client.py:70-92 | each attempt sends the piece in hand under the current bit unless lost; only the reply `'ACK' + bit` moves to the next piece, flips the bit and updates both counters |
| FileTransfer.SendFile | RDT_3.0/client.py:64-94 | the loop never goes back and stops after the last piece |
| FileTransfer.SendFileKeeps | RDT_3.0/client.py:93-94 | the packet counter equals the number of acknowledged pieces, the byte counter their size, and the bit their parity |
| FileTransfer.SenderTotals | RDT_3.0/server.py:146-149 | when the loop has ended the counters report the number of pieces and the size of the file |
| FileTransfer.ReceiverAckIsSenderText | RDT_3.0/server.py:136 | the receiver's `make_ack(b)` is exactly the text the sender waits for |
| FileTransfer.CleanSendCompletes | RDT_3.0/server.py:115-147 | when nothing is lost the sender transmits each piece once, in order, and finishes |
| FileTransfer.ReceiveChunk | RDT_3.0/server.py:70-94 | an in-order payload is appended and its length added; anything else writes nothing |
| FileTransfer.ReceiveFile | RDT_3.0/server.py:65 | packets are taken only while fewer bytes than announced were written; the file only grows |
| FileTransfer.ReceiveFileKeeps | RDT_3.0/client.py:119-122 | the byte counter is always the size of what was written |
| FileTransfer.CleanReceiveCompletes | RDT_3.0/server.py:63-94 | fed the sender's packets, the receiver writes all pieces, acknowledges each under its bit, and its size check ends the loop exactly at the last one |
| FileTransfer.CleanTransferIsExact | RDT_3.0/client.py:56-96 | a transfer without loss is exact: the receiver ends with the sender's file and both byte counts equal its size |
| LockOrder.Run | HuntCin/server.py:62 | a thread blocks only on an acquire of a lock it already holds (`threading.Lock` is not re-entrant) |
| LockOrder.RunAppend | HuntCin/server.py:62 | running two pieces of code in turn is running the second from where the first ended |
| LockOrder.SendOpsRun | HuntCin/server.py:93-131 | `reliable_send` hangs exactly when the table lock is already held, however many attempts it needs |
| LockOrder.PlaceAsWritten | HuntCin/server.py:221-316 | the handler replies from inside the table block exactly for the four rejections |
| LockOrder.AsWrittenHangs | HuntCin/server.py:223-227 | as written, the handler hangs exactly on those four rejections, holding the table lock; every other path ends with no lock held |
| LockOrder.CorrectedCompletes | HuntCin/server.py:250-258 | with each rejection sent after its table block, every handler path ends with no lock held |
| LockOrder.HungHandlerStopsReceiver | HuntCin/server.py:159 | after such a hang, the receive loop hangs at the next datagram's `ensure_client_state` |

## Left out

- Sockets, `sendto` and `recvfrom`: datagrams are values in the model. A loss, a timeout or a late ACK is an event in a trace.
- Threads and their scheduling: each handler runs atomically. The overlap in `broadcast_message` is modelled only in the one schedule of `ConcurrentSends`.
- Time: `time.time`, `time.sleep`, `ROUND_TIME` and the `last_active` stamps.
- Randomness: `simulate_loss` is the choice of trace events. `random_treasure_position` is replaced by a treasure parameter that must be on the grid and not the start cell.
- Liveness: no lemma says that a send eventually succeeds under fair loss. Only the one-loss recovery scenario is proved.
- Console: `input()`, every `print`, the `exit` command's socket close, and the server's console commands.
- File I/O in `RDT_3.0`: `open`, `read`, `write` and `os.path`. A file is a string split by `Chunks`. The untagged name and size datagrams sent before the transfer are plain I/O.
- UTF-8 decoding: payload text is taken as-is. The fallbacks for undecodable bytes are not modelled.
- `int()` leniency: a sequence-number prefix is a non-empty string of decimal digits. Signs, blanks and underscores that `int()` would accept are not modelled.
- `Session.ResolveRound`: notices whose wording depends on dict iteration order (status, results, eliminations, scoreboard) carry their data rather than their exact text.
- `Session.ResolveRound`: the several broadcasts of one resolution are grouped, not ordered as the loop sends them.
- `reliable_send`'s early `return False` when the record disappeared: records are never removed, so it cannot happen.
- `client.py` clears its ACK event once, before the retry loop. `Channel` clears it on every retry. A retry only happens when the event is not set, so the two agree.
- `Session.DoLogin`, `Session.DoMove`, `Session.DoHelp`, `Session.Dispatch`: the rejections (name in use, move while offline, hint or suggest while offline or already used) are modelled as replies sent after the table block, as every other reply is. As written (HuntCin/server.py:223-227, 253-254, 262-266, 289-293) they are sent inside it and the handler hangs holding the lock, so "refused and nothing changes" is the corrected behaviour; `LockOrder.AsWrittenHangs` models the code as written.
- `ClientApp.Decide`: the 0.2 s pause after a login and the `exit` shutdown sequence are not modelled.
- `FileTransfer.CleanTransferIsExact`: proved for transfers without loss only. Over a lossy link, `AlternatingBit.DeliversPrefixInOrder` with the `RDT_3.0` receiver gives safety only: what was written is a prefix of the file, in order, each piece once. It does not give completion. In particular a lost final ACK wedges the transfer. The receiver leaves its loop once `total >= size` (RDT_3.0/server.py:65) and never acknowledges that piece again. It sends the size line (RDT_3.0/server.py:112), which the waiting sender takes for a wrong ACK and answers with the last piece again (RDT_3.0/client.py:83-88). The receiver, now sending, takes that piece for a wrong ACK in turn (RDT_3.0/server.py:133-141), and the two sides resend to each other for ever. This end-of-transfer phase is not modelled.
- The link is FIFO: `AlternatingBit` loses and duplicates datagrams but never reorders them. Both programs talk over the loopback interface (`127.0.0.1`), which keeps order. A reordering link breaks `AlternatingBit.DeliversPrefixInOrder`: a delayed copy of an old packet can arrive when its bit is expected again and be delivered twice.
- In `reliable_send` the wait timeout (HuntCin/server.py:122) and the event clear of the next attempt (HuntCin/server.py:109) are one atomic step in the model. In the code an ACK arriving between them sets the event, and the clear then erases it; that attempt's ACK is lost and the packet is sent again. The retransmission is a duplicate the receiver re-acknowledges, so nothing is lost, but the model does not show that schedule.
- Whitespace and case are ASCII: `Text.IsSpace` is space, tab, line feed, carriage return, vertical tab and form feed, and `Text.Lower` folds `A`-`Z` only. Python's `str.split`, `str.strip` and `str.lower` are Unicode-aware. They also treat U+001C-U+001F, U+0085, U+00A0, U+1680, U+2000-U+200A, U+2028, U+2029, U+202F, U+205F and U+3000 as blanks, and they fold non-ASCII capitals such as `Ê` to `ê`. This affects the server's command parsing (HuntCin/server.py:215-222) and the client's confirmation checks (HuntCin/clients.py:129-131). The server sends both confirmations in lower case, so the difference only shows for texts a client receives from elsewhere.

## Findings

| source | as written | input that shows it | evidently intended | confidence | as-written member | corrected member |
|---|---|---|---|---|---|---|
| HuntCin/server.py:223-227 | Four rejections call `reliable_send` inside `with clients_lock:`: name in use (223-227), move while offline (253-254), hint and suggest while offline or already used (262-266, 289-293). `reliable_send` takes the same non-re-entrant lock through `ensure_client_state` (99, 78). | Peer B sends `login ana` while peer A is online as `ana`. The handler thread hangs holding the table lock. The receive loop then hangs at its next `ensure_client_state`, so the server stops. | Send each rejection after the `with` block, as every other reply is. `Session.Dispatch` models that order. | high, not executed | LockOrder.AsWrittenHangs | LockOrder.CorrectedCompletes |
| HuntCin/server.py:198-203 | `broadcast_message` starts one `reliable_send` thread per message and peer. Two sends to one peer can overlap and share `next_seq_send` and the per-bit events. | Two broadcasts in quick succession to one peer, both started before its first ACK. Both sends report success, only the first message is delivered, and the bits are left out of step. | Sends to one peer serialised, one at a time. | medium (depends on thread timing), not executed | ConcurrentSends.ConcurrentSendsLoseMessage | AlternatingBit.DeliversPrefixInOrder |
| RDT_3.0/client.py:44 | Neither `RDT_3.0` script calls `settimeout`, so `except socket.timeout` (client.py:90-92, server.py:143-145) never fires. | The loss simulation (probability 0.2) drops the first data packet. Sender and receiver then both block in `recvfrom` for ever. | A receive timeout of `TIMEOUT` seconds, which the constant at line 7 suggests. | high, not executed | AlternatingBit.BlockingSenderStallsAfterLoss | AlternatingBit.TimeoutRecoversFromLoss |

=== FILE: alternating_bit.dfy ===
/**
 * One sender and one receiver running the alternating-bit protocol over a
 * link that may lose and duplicate datagrams but keeps them in order (the
 * loopback UDP the programs are run on). Threads, timeouts and
 * `simulate_loss` only decide which event happens next, so a run is an
 * arbitrary finite sequence of `Event`s; every event applies the very
 * transitions of `Channel`.
 *
 * The sender is either a HuntCin one (ACK tokens set an event that the
 * waiting `reliable_send` inspects when its wait ends) or an `RDT_3.0` one
 * (the send loop reads the ACK text itself with `recvfrom`). The receiver is
 * any of the three receive loops.
 *
 * The theorem: whatever the trace, the receiving application has been
 * handed a prefix of the messages, in order, each exactly once, and every
 * send that reported success was among them.
 */
module AlternatingBit {
  import opened Common
  import opened Codec
  import opened Channel

  /** How the sending side learns about acknowledgements. */
  datatype SenderKind =
    | EventWaiting   // HuntCin: ACK tokens set per-bit events; the send checks its event when the wait ends
    | RecvTimeout    // RDT_3.0 send loop: `recvfrom` the ACK text, resend on mismatch or on timeout
    | RecvBlocking   // RDT_3.0 as written: the socket has no timeout, so the wait never ends without a datagram

  /** Which receive loop runs at the other end. */
  datatype ReceiverKind = HuntReceiver | AckAlwaysReceiver | RdtReceiver

  datatype Config = Config(sender: SenderKind, receiver: ReceiverKind)

  datatype Sys = Sys(
    msgs: seq<string>,       // what the sending application hands over, in order
    acked: nat,              // how many sends have returned success
    sending: bool,           // a send of `msgs[acked]` is in progress
    tx: Endpoint,            // the sender's channel state
    rx: Endpoint,            // the receiver's channel state
    data: seq<string>,       // datagrams in flight towards the receiver, oldest first
    acks: seq<string>,       // datagrams in flight towards the sender, oldest first
    delivered: seq<string>)  // what the receiving application has been handed

  datatype Event =
    | Start             // the sending application calls the reliable send of its next message
    | Wait              // the sender's wait for an acknowledgement ends
    | DataArrives       // the oldest datagram in flight reaches the receiver
    | AckArrives        // the oldest datagram in flight back reaches the sender
    | LoseData(k: nat)  // the k-th datagram in flight is lost
    | LoseAck(k: nat)
    | DupData(k: nat)   // the k-th datagram in flight is duplicated in place
    | DupAck(k: nat)

  function Init(msgs: seq<string>): Sys {
    Sys(msgs, 0, false, Fresh, Fresh, [], [], [])
  }

  /** The receive loop selected by the configuration. */
  function Receive(kind: ReceiverKind, ep: Endpoint, p: string): Step {
    match kind
    case HuntReceiver => ReceiveHunt(ep, p)
    case AckAlwaysReceiver => ReceiveAckAlways(ep, p)
    case RdtReceiver => ReceiveRdt(ep, p)
  }

  function Remove(ch: seq<string>, k: nat): seq<string> {
    if k < |ch| then ch[..k] + ch[k + 1..] else ch
  }

  function Duplicate(ch: seq<string>, k: nat): seq<string> {
    if k < |ch| then ch[..k + 1] + ch[k..] else ch
  }

  /** The payload of the send in progress (or about to start). */
  function Current(s: Sys): string {
    if s.acked < |s.msgs| then s.msgs[s.acked] else ""
  }

  /** The sender's send completes: the bit flips and the next message becomes current. */
  function Complete(s: Sys, tx: Endpoint): Sys {
    s.(acked := s.acked + 1, sending := false, tx := tx)
  }

  function Next(cfg: Config, s: Sys, e: Event): (s': Sys)
    ensures s'.msgs == s.msgs
  {
    match e
    case Start =>
      if !s.sending && s.acked < |s.msgs| then
        var (tx, _, pkt) := SendStart(s.tx, s.msgs[s.acked]);
        s.(sending := true, tx := tx, data := s.data + [pkt])
      else s
    case Wait =>
      if !s.sending then s
      else (
        match cfg.sender
        case EventWaiting => (
          match AwaitAck(s.tx, Pending(s.tx.nextSend, Current(s)))
          case Acknowledged(tx) => Complete(s, tx)
          case Resend(tx, _, pkt) => s.(tx := tx, data := s.data + [pkt]))
        case RecvTimeout => s.(data := s.data + [MakePkt(s.tx.nextSend, Current(s))])
        case RecvBlocking => s)
    case DataArrives => if |s.data| == 0 then s else Arrive(cfg, s)
    case AckArrives =>
      if |s.acks| == 0 then s
      else (
        match cfg.sender
        case EventWaiting => s.(tx := ReceiveHunt(s.tx, s.acks[0]).ep, acks := s.acks[1..])
        case _ =>
          if !s.sending then s
          else if s.acks[0] == MakeAck(s.tx.nextSend) then
            Complete(s.(acks := s.acks[1..]), s.tx.(nextSend := Flip(s.tx.nextSend)))
          else
            s.(acks := s.acks[1..], data := s.data + [MakePkt(s.tx.nextSend, Current(s))]))
    case LoseData(k) => s.(data := Remove(s.data, k))
    case LoseAck(k) => s.(acks := Remove(s.acks, k))
    case DupData(k) => s.(data := Duplicate(s.data, k))
    case DupAck(k) => s.(acks := Duplicate(s.acks, k))
  }

  function Run(cfg: Config, s: Sys, trace: seq<Event>): Sys
    decreases |trace|
  {
    if |trace| == 0 then s else Run(cfg, Next(cfg, s, trace[0]), trace[1..])
  }

  // ---------------------------------------------------------------------
  // The invariant

  /** Every element of `ch` is `x`. */
  ghost predicate AllOf(ch: seq<string>, x: string) {
    forall k :: 0 <= k < |ch| ==> ch[k] == x
  }

  /** `ch` is some copies of `x` followed by some copies of `y`. */
  ghost predicate Blocks(ch: seq<string>, x: string, y: string) {
    && (forall k :: 0 <= k < |ch| ==> ch[k] == x || ch[k] == y)
    && (forall j, k :: 0 <= j < k < |ch| && ch[j] == y ==> ch[k] == y)
  }

  /** The packet of the send in progress. */
  function NewPkt(s: Sys): string {
    MakePkt(BitOf(s.acked), Current(s))
  }

  /** The packet of the previous send, which the receiver already has. */
  function OldPkt(s: Sys): string {
    MakePkt(Flip(BitOf(s.acked)), if 0 < s.acked <= |s.msgs| then s.msgs[s.acked - 1] else "")
  }

  ghost predicate Inv(s: Sys) {
    var i := s.acked;
    var d := |s.delivered|;
    var b := BitOf(i);
    && i <= |s.msgs| && (s.sending ==> i < |s.msgs|)
    && (d == i || (s.sending && d == i + 1))
    && s.delivered == s.msgs[..d]
    && s.tx.nextSend == b && s.rx.expected == BitOf(d)
    && (d == i && s.sending ==>
          Blocks(s.data, OldPkt(s), NewPkt(s)) && AllOf(s.acks, MakeAck(Flip(b))) && !s.tx.Acked(b))
    && (d == i && !s.sending ==>
          AllOf(s.data, OldPkt(s)) && AllOf(s.acks, MakeAck(Flip(b))))
    && (d == i + 1 ==>
          && AllOf(s.data, NewPkt(s))
          && Blocks(s.acks, MakeAck(Flip(b)), MakeAck(b))
          && (s.tx.Acked(b) ==> AllOf(s.acks, MakeAck(b))))
  }

  // ---------------------------------------------------------------------
  // Channel shapes under the link's operations

  lemma RemoveKeeps(ch: seq<string>, k: nat, x: string, y: string)
    ensures AllOf(ch, x) ==> AllOf(Remove(ch, k), x)
    ensures Blocks(ch, x, y) ==> Blocks(Remove(ch, k), x, y)
  {
    var r := Remove(ch, k);
    if k < |ch| {
      assert forall j :: 0 <= j < |r| ==> r[j] == (if j < k then ch[j] else ch[j + 1]);
    }
  }

  lemma DuplicateKeeps(ch: seq<string>, k: nat, x: string, y: string)
    ensures AllOf(ch, x) ==> AllOf(Duplicate(ch, k), x)
    ensures Blocks(ch, x, y) ==> Blocks(Duplicate(ch, k), x, y)
  {
    var r := Duplicate(ch, k);
    if k < |ch| {
      assert forall j :: 0 <= j < |r| ==> r[j] == (if j <= k then ch[j] else ch[j - 1]);
    }
  }

  lemma TailKeeps(ch: seq<string>, x: string, y: string)
    requires |ch| > 0
    ensures AllOf(ch, x) ==> AllOf(ch[1..], x)
    ensures Blocks(ch, x, y) ==> Blocks(ch[1..], x, y)
    ensures Blocks(ch, x, y) && ch[0] == y ==> AllOf(ch[1..], y)
  {
    assert forall j :: 0 <= j < |ch| - 1 ==> ch[1..][j] == ch[j + 1];
  }

  lemma AppendKeeps(ch: seq<string>, x: string, y: string)
    ensures AllOf(ch, x) ==> AllOf(ch + [x], x) && Blocks(ch + [y], x, y)
    ensures Blocks(ch, x, y) ==> Blocks(ch + [y], x, y)
    ensures AllOf(ch, y) ==> AllOf(ch + [y], y)
  {
  }

  lemma AllOfIsBlocks(ch: seq<string>, x: string, y: string)
    ensures AllOf(ch, x) ==> Blocks(ch, x, y)
    ensures AllOf(ch, y) ==> Blocks(ch, x, y)
  {
  }

  /** A tagged data packet is handled the same way by every receive loop. */
  lemma ReceiveTagged(kind: ReceiverKind, ep: Endpoint, n: Bit, m: string)
    ensures Receive(kind, ep, MakePkt(n, m)) ==
      if n == ep.expected then Step(ep.(expected := Flip(ep.expected)), [MakeAck(n)], Some(m))
      else Step(ep, [MakeAck(n)], None)
  {
    ParseMakePkt(n, m);
    assert AckToken(MakePkt(n, m)).None?;
  }

  /** What an ACK token does to the sender's events. */
  lemma AckSetsEvent(ep: Endpoint, b: Bit)
    ensures ReceiveHunt(ep, MakeAck(b)).ep == ep.WithAck(b, true)
  {
  }

  // ---------------------------------------------------------------------
  // Each event preserves the invariant

  lemma StartKeeps(cfg: Config, s: Sys)
    requires Inv(s)
    ensures Inv(Next(cfg, s, Start))
  {
    if !s.sending && s.acked < |s.msgs| {
      var s' := Next(cfg, s, Start);
      AppendKeeps(s.data, OldPkt(s), NewPkt(s));
      assert OldPkt(s') == OldPkt(s) && NewPkt(s') == NewPkt(s);
    }
  }

  lemma CompleteKeeps(s: Sys, tx: Endpoint)
    requires Inv(s) && s.sending && |s.delivered| == s.acked + 1
    requires tx.nextSend == Flip(s.tx.nextSend)
    requires AllOf(s.acks, MakeAck(BitOf(s.acked)))
    ensures Inv(Complete(s, tx))
  {
    var s' := Complete(s, tx);
    assert BitOf(s'.acked) == Flip(BitOf(s.acked));
    assert OldPkt(s') == NewPkt(s);
    assert s.msgs[..|s.delivered|] == s.delivered;
  }

  lemma WaitKeeps(cfg: Config, s: Sys)
    requires Inv(s)
    ensures Inv(Next(cfg, s, Wait))
  {
    if s.sending {
      var b := BitOf(s.acked);
      AppendKeeps(s.data, OldPkt(s), NewPkt(s));
      match cfg.sender
      case EventWaiting => {
        match AwaitAck(s.tx, Pending(s.tx.nextSend, Current(s)))
        case Acknowledged(tx) => CompleteKeeps(s, tx);
        case Resend(tx, _, pkt) =>
      }
      case RecvTimeout =>
      case RecvBlocking =>
    }
  }

  /** The state after the receiver handled the oldest datagram in flight. */
  function Arrive(cfg: Config, s: Sys): Sys
    requires |s.data| > 0
  {
    var r := Receive(cfg.receiver, s.rx, s.data[0]);
    s.(rx := r.ep, data := s.data[1..], acks := s.acks + r.sent,
       delivered := s.delivered + (if r.delivered.Some? then [r.delivered.value] else []))
  }

  /** The packet of the send in progress is delivered, flips the receiver and is acknowledged. */
  lemma ArriveNewStep(cfg: Config, s: Sys)
    requires |s.data| > 0 && s.data[0] == NewPkt(s) && s.rx.expected == BitOf(s.acked)
    ensures Arrive(cfg, s) == s.(rx := s.rx.(expected := Flip(BitOf(s.acked))), data := s.data[1..],
      acks := s.acks + [MakeAck(BitOf(s.acked))], delivered := s.delivered + [Current(s)])
  {
    ReceiveTagged(cfg.receiver, s.rx, BitOf(s.acked), Current(s));
  }

  /** The receiver gets the packet of the send in progress for the first time. */
  lemma ArriveNewKeeps(cfg: Config, s: Sys)
    requires Inv(s) && |s.data| > 0 && |s.delivered| == s.acked && s.sending && s.data[0] == NewPkt(s)
    ensures Inv(Arrive(cfg, s))
  {
    var b := BitOf(s.acked);
    var d := |s.delivered|;
    ArriveNewStep(cfg, s);
    var s' := Arrive(cfg, s);
    assert NewPkt(s') == NewPkt(s);
    TailKeeps(s.data, OldPkt(s), NewPkt(s));
    assert AllOf(s'.data, NewPkt(s'));
    AppendKeeps(s.acks, MakeAck(Flip(b)), MakeAck(b));
    assert Blocks(s'.acks, MakeAck(Flip(b)), MakeAck(b));
    assert s.msgs[..d + 1] == s.msgs[..d] + [s.msgs[d]];
    BitOfNext(d);
  }

  /** A packet of the previous send is only acknowledged again. */
  lemma ArriveOldStep(cfg: Config, s: Sys)
    requires |s.data| > 0 && s.data[0] == OldPkt(s) && s.rx.expected == BitOf(s.acked)
    ensures Arrive(cfg, s) == s.(data := s.data[1..], acks := s.acks + [MakeAck(Flip(BitOf(s.acked)))])
  {
    var b := BitOf(s.acked);
    ReceiveTagged(cfg.receiver, s.rx, Flip(b), if 0 < s.acked <= |s.msgs| then s.msgs[s.acked - 1] else "");
  }

  /** The receiver gets a packet of the previous send again. */
  lemma ArriveOldKeeps(cfg: Config, s: Sys)
    requires Inv(s) && |s.data| > 0 && |s.delivered| == s.acked && s.data[0] == OldPkt(s)
    ensures Inv(Arrive(cfg, s))
  {
    var b := BitOf(s.acked);
    ArriveOldStep(cfg, s);
    TailKeeps(s.data, OldPkt(s), NewPkt(s));
    AppendKeeps(s.acks, MakeAck(Flip(b)), MakeAck(b));
    var s' := Arrive(cfg, s);
    assert OldPkt(s') == OldPkt(s) && NewPkt(s') == NewPkt(s);
  }

  /** The receiver gets the packet it has just delivered again. */
  lemma ArriveAgainKeeps(cfg: Config, s: Sys)
    requires Inv(s) && |s.data| > 0 && |s.delivered| == s.acked + 1
    ensures Inv(Arrive(cfg, s))
  {
    var b := BitOf(s.acked);
    BitOfNext(s.acked);
    TailKeeps(s.data, NewPkt(s), NewPkt(s));
    ReceiveTagged(cfg.receiver, s.rx, b, Current(s));
    AppendKeeps(s.acks, MakeAck(Flip(b)), MakeAck(b));
  }

  lemma DataArrivesKeeps(cfg: Config, s: Sys)
    requires Inv(s)
    ensures Inv(Next(cfg, s, DataArrives))
  {
    if |s.data| > 0 {
      assert Next(cfg, s, DataArrives) == Arrive(cfg, s);
      if |s.delivered| == s.acked + 1 {
        ArriveAgainKeeps(cfg, s);
      } else if s.sending && s.data[0] == NewPkt(s) {
        ArriveNewKeeps(cfg, s);
      } else {
        ArriveOldKeeps(cfg, s);
      }
    }
  }

  lemma AckArrivesKeeps(cfg: Config, s: Sys)
    requires Inv(s)
    ensures Inv(Next(cfg, s, AckArrives))
  {
    if |s.acks| > 0 {
      var b := BitOf(s.acked);
      var a := s.acks[0];
      var d := |s.delivered|;
      TailKeeps(s.acks, MakeAck(Flip(b)), MakeAck(b));
      assert a == MakeAck(Flip(b)) || a == MakeAck(b);
      match cfg.sender
      case EventWaiting =>
        if a == MakeAck(b) {
          AckSetsEvent(s.tx, b);
        } else {
          AckSetsEvent(s.tx, Flip(b));
        }
      case _ =>
        if s.sending {
          if a == MakeAck(s.tx.nextSend) {
            CompleteKeeps(s.(acks := s.acks[1..]), s.tx.(nextSend := Flip(s.tx.nextSend)));
          } else {
            AppendKeeps(s.data, OldPkt(s), NewPkt(s));
          }
        }
    }
  }

  lemma LinkKeeps(cfg: Config, s: Sys, e: Event)
    requires Inv(s) && (e.LoseData? || e.LoseAck? || e.DupData? || e.DupAck?)
    ensures Inv(Next(cfg, s, e))
  {
    var b := BitOf(s.acked);
    match e
    case LoseData(k) => RemoveKeeps(s.data, k, OldPkt(s), NewPkt(s)); RemoveKeeps(s.data, k, NewPkt(s), NewPkt(s));
    case LoseAck(k) => RemoveKeeps(s.acks, k, MakeAck(Flip(b)), MakeAck(b)); RemoveKeeps(s.acks, k, MakeAck(b), MakeAck(b));
    case DupData(k) => DuplicateKeeps(s.data, k, OldPkt(s), NewPkt(s)); DuplicateKeeps(s.data, k, NewPkt(s), NewPkt(s));
    case DupAck(k) => DuplicateKeeps(s.acks, k, MakeAck(Flip(b)), MakeAck(b)); DuplicateKeeps(s.acks, k, MakeAck(b), MakeAck(b));
  }

  lemma NextKeeps(cfg: Config, s: Sys, e: Event)
    requires Inv(s)
    ensures Inv(Next(cfg, s, e))
  {
    match e
    case Start => StartKeeps(cfg, s);
    case Wait => WaitKeeps(cfg, s);
    case DataArrives => DataArrivesKeeps(cfg, s);
    case AckArrives => AckArrivesKeeps(cfg, s);
    case _ => LinkKeeps(cfg, s, e);
  }

  lemma {:induction false} RunKeeps(cfg: Config, s: Sys, trace: seq<Event>)
    requires Inv(s)
    ensures Inv(Run(cfg, s, trace)) && Run(cfg, s, trace).msgs == s.msgs
    decreases |trace|
  {
    if |trace| > 0 {
      NextKeeps(cfg, s, trace[0]);
      RunKeeps(cfg, Next(cfg, s, trace[0]), trace[1..]);
    }
  }

  /**
   * At-most-once, in-order delivery over every finite run, for every
   * sender and receiver variant: the receiving application has been handed
   * exactly the first messages, each once and in order, and every send
   * that returned success is among them.
   */
  lemma DeliversPrefixInOrder(cfg: Config, msgs: seq<string>, trace: seq<Event>)
    ensures var s := Run(cfg, Init(msgs), trace);
      && |s.delivered| <= |msgs|
      && s.delivered == msgs[..|s.delivered|]
      && s.acked <= |s.delivered| <= s.acked + 1
  {
    RunKeeps(cfg, Init(msgs), trace);
  }

  // ---------------------------------------------------------------------
  // The RDT_3.0 sockets never get a timeout

  /**
   * As written, neither `RDT_3.0` script calls `settimeout`, so `recvfrom`
   * blocks for ever and `socket.timeout` is never raised: once the only
   * data packet is lost, both sides wait and no event changes anything.
   */
  lemma BlockingSenderStallsAfterLoss(receiver: ReceiverKind, m: string)
    ensures var cfg := Config(RecvBlocking, receiver);
      var s := Run(cfg, Init([m]), [Start, LoseData(0)]);
      && s.sending && s.delivered == [] && s.data == [] && s.acks == []
      && forall e :: Next(cfg, s, e) == s
  {
    var cfg := Config(RecvBlocking, receiver);
    var s1 := Next(cfg, Init([m]), Start);
    assert Run(cfg, Init([m]), [Start, LoseData(0)]) == Next(cfg, s1, LoseData(0));
  }

  /** With a receive timeout, every wait that ends while a send is in progress transmits its packet again. */
  lemma TimeoutRetransmits(receiver: ReceiverKind, s: Sys)
    requires Inv(s) && s.sending
    ensures Next(Config(RecvTimeout, receiver), s, Wait).data == s.data + [NewPkt(s)]
  {
  }

  /** ... so the loss that stalls the blocking sender is recovered from. */
  lemma TimeoutRecoversFromLoss(receiver: ReceiverKind, m: string)
    ensures var s := Run(Config(RecvTimeout, receiver), Init([m]),
                         [Start, LoseData(0), Wait, DataArrives, AckArrives]);
      s.delivered == [m] && s.acked == 1 && !s.sending
  {
    var cfg := Config(RecvTimeout, receiver);
    var s0 := Init([m]);
    var s1 := Next(cfg, s0, Start);
    var s2 := Next(cfg, s1, LoseData(0));
    var s3 := Next(cfg, s2, Wait);
    assert s3.data == [MakePkt(0, m)];
    ReceiveTagged(receiver, s3.rx, 0, m);
    var s4 := Next(cfg, s3, DataArrives);
    assert s4.delivered == [m] && s4.acks == [MakeAck(0)];
    var s5 := Next(cfg, s4, AckArrives);
    assert s5.delivered == [m] && s5.acked == 1 && !s5.sending;
    assert Run(cfg, s0, [Start, LoseData(0), Wait, DataArrives, AckArrives]) == s5 by {
      var t := [Start, LoseData(0), Wait, DataArrives, AckArrives];
      assert t[1..] == [LoseData(0), Wait, DataArrives, AckArrives];
      assert t[1..][1..] == [Wait, DataArrives, AckArrives];
      assert t[1..][1..][1..] == [DataArrives, AckArrives];
      assert t[1..][1..][1..][1..] == [AckArrives];
    }
  }
}

=== FILE: channel.dfy ===
/**
 * One peer's alternating-bit engine: the bit it expects on the next data
 * packet, the bit it will put on its next send, and one acknowledgement
 * flag per bit (the `threading.Event`s of the source).
 *
 * Receiving is a pure transition from one inbound datagram to the new
 * state, the acknowledgements to emit and possibly one delivered payload.
 * Sending is split into the start of `reliable_send` and each return of its
 * `wait(TIMEOUT)`; every handler runs atomically here.
 */
module Channel {
  import opened Common
  import opened Codec

  datatype Endpoint = Endpoint(expected: Bit, nextSend: Bit, acked0: bool, acked1: bool)
  {
    /** Whether the acknowledgement event for bit `b` is set. */
    function Acked(b: Bit): bool {
      if b == 0 then acked0 else acked1
    }

    /** The same endpoint with the event for `b` set (`v`) or cleared. */
    function WithAck(b: Bit, v: bool): (e: Endpoint)
      ensures e.Acked(b) == v && e.Acked(Flip(b)) == Acked(Flip(b))
      ensures e.expected == expected && e.nextSend == nextSend
    {
      if b == 0 then this.(acked0 := v) else this.(acked1 := v)
    }
  }

  /** The state `ensure_client_state` creates and the clients start in: both bits 0, no event set. */
  const Fresh: Endpoint := Endpoint(0, 0, false, false)

  /** What handling one inbound datagram produces. */
  datatype Step = Step(ep: Endpoint, sent: seq<string>, delivered: Option<string>)

  /** The flags after a datagram: only an ACK token touches them, and only its own bit. */
  predicate FlagsAfter(ep: Endpoint, p: string, e: Endpoint) {
    forall b: Bit {:trigger e.Acked(b)} ::
      e.Acked(b) == (ep.Acked(b) || AckToken(p) == Some(b))
  }

  /**
   * The receiver of HuntCin `server.py` and `clients.py`: an ACK token only
   * sets its event; a malformed packet is dropped without an ACK; the
   * expected bit is acknowledged, flipped and delivered; any other sequence
   * number re-acknowledges the previous bit `1 - expected`.
   */
  function ReceiveHunt(ep: Endpoint, p: string): (r: Step)
    ensures r.ep.nextSend == ep.nextSend && FlagsAfter(ep, p, r.ep)
    ensures r.delivered.Some? <==> AckToken(p).None? && Parse(p).Data? && Parse(p).num == ep.expected
    ensures r.delivered.Some? ==> Parse(p).payload == r.delivered.value && r.sent == [MakeAck(ep.expected)]
    ensures r.ep.expected == (if r.delivered.Some? then Flip(ep.expected) else ep.expected)
    ensures r.sent == [] <==> AckToken(p).Some? || !Parse(p).Data?
    ensures r.sent != [] && r.delivered.None? ==> r.sent == [MakeAck(Flip(ep.expected))]
  {
    match AckToken(p)
    case Some(b) => Step(ep.WithAck(b, true), [], None)
    case None =>
      match ExtractHunt(p)
      case (None, _) => Step(ep, [], None)
      case (Some(n), data) =>
        if n == ep.expected then
          Step(ep.(expected := Flip(ep.expected)), [MakeAck(n)], Some(data))
        else
          Step(ep, [MakeAck(Flip(ep.expected))], None)
  }

  /**
   * The receiver of HuntCin `client.py`: every parsable data packet is
   * acknowledged with the bit it carries (`ACK0` for 0, `ACK1` otherwise)
   * before the duplicate check; only the expected bit is delivered.
   */
  function ReceiveAckAlways(ep: Endpoint, p: string): (r: Step)
    ensures r.ep.nextSend == ep.nextSend && FlagsAfter(ep, p, r.ep)
    ensures r.delivered.Some? <==> AckToken(p).None? && Parse(p).Data? && Parse(p).num == ep.expected
    ensures r.delivered.Some? ==> Parse(p).payload == r.delivered.value
    ensures r.ep.expected == (if r.delivered.Some? then Flip(ep.expected) else ep.expected)
    ensures r.sent == [] <==> AckToken(p).Some? || !Parse(p).Data?
    ensures r.sent != [] ==> r.sent == [MakeAck(Parse(p).num)]
  {
    if p == Ack0 then Step(ep.WithAck(0, true), [], None)
    else if p == Ack1 then Step(ep.WithAck(1, true), [], None)
    else
      match ExtractClient(p)
      case (Some(s), Some(content)) =>
        var reply := if s == 0 then Ack0 else Ack1;
        if s == ep.expected then
          Step(ep.(expected := Flip(ep.expected)), [reply], Some(content))
        else
          Step(ep, [reply], None)
      case _ => Step(ep, [], None)
  }

  /**
   * The receive loops of `RDT_3.0`: there is no ACK-token check; the
   * expected bit is written, acknowledged and flipped; every other outcome
   * of `extract_pkt` except `-1` (no separator), the `-2` of a bad prefix
   * included, re-acknowledges `1 - expected`; a `-1` packet is ignored.
   */
  function ReceiveRdt(ep: Endpoint, p: string): (r: Step)
    ensures r.ep.nextSend == ep.nextSend && r.ep.acked0 == ep.acked0 && r.ep.acked1 == ep.acked1
    ensures r.delivered.Some? <==> Parse(p).Data? && Parse(p).num == ep.expected
    ensures r.delivered.Some? ==> Parse(p).payload == r.delivered.value && r.sent == [MakeAck(ep.expected)]
    ensures r.ep.expected == (if r.delivered.Some? then Flip(ep.expected) else ep.expected)
    ensures r.sent == [] <==> Separator !in p
    ensures r.sent != [] && r.delivered.None? ==> r.sent == [MakeAck(Flip(ep.expected))]
  {
    var (n, data) := ExtractRdt(p);
    if n == ep.expected then
      Step(ep.(expected := Flip(ep.expected)), [MakeAck(ep.expected)], Some(data))
    else if n != -1 then
      Step(ep, [MakeAck(Flip(ep.expected))], None)
    else
      Step(ep, [], None)
  }

  /** The two HuntCin receivers agree on every packet whose sequence number is a bit. */
  lemma ReceiversAgreeOnBits(ep: Endpoint, p: string)
    requires Parse(p).Data? ==> Parse(p).num <= 1
    ensures ReceiveHunt(ep, p) == ReceiveAckAlways(ep, p)
  {
  }

  /** ... and differ on a sequence number outside {0, 1}: `2|x` while expecting 1. */
  lemma ReceiversDifferOffBits()
    ensures ReceiveHunt(Endpoint(1, 0, false, false), "2|x").sent == [Ack0]
    ensures ReceiveAckAlways(Endpoint(1, 0, false, false), "2|x").sent == [Ack1]
  {
    ParseMakePkt(2, "x");
    assert MakePkt(2, "x") == "2|x";
  }

  /** Inbound datagrams handled one after another (states and emitted ACKs; deliveries in order). */
  function ReceiveMany(ep: Endpoint, ps: seq<string>): (r: (Endpoint, seq<string>, seq<string>))
    ensures |r.2| <= |ps|
    decreases |ps|
  {
    if |ps| == 0 then (ep, [], [])
    else
      var s := ReceiveHunt(ep, ps[0]);
      var rest := ReceiveMany(s.ep, ps[1..]);
      (rest.0, s.sent + rest.1, (if s.delivered.Some? then [s.delivered.value] else []) + rest.2)
  }

  /** `n` copies of `x`. */
  function Copies(x: string, n: nat): (r: seq<string>)
    ensures |r| == n && forall i :: 0 <= i < n ==> r[i] == x
  {
    if n == 0 then [] else [x] + Copies(x, n - 1)
  }

  /**
   * Once a data packet has been delivered, replaying it any number of times
   * only re-triggers its ACK: no second delivery and no change of state.
   */
  lemma {:induction false} ReplayOnlyReAcks(ep: Endpoint, p: string, n: nat)
    requires ReceiveHunt(ep, p).delivered.Some?
    ensures var e := ReceiveHunt(ep, p).ep;
      ReceiveMany(e, Copies(p, n)) == (e, Copies(MakeAck(ep.expected), n), [])
    decreases n
  {
    var e := ReceiveHunt(ep, p).ep;
    if n > 0 {
      ReplayOnlyReAcks(ep, p, n - 1);
      assert Copies(p, n)[1..] == Copies(p, n - 1);
      assert ReceiveHunt(e, p) == Step(e, [MakeAck(ep.expected)], None);
    }
  }

  /** A reliable send in progress: the bit it was sent with and its payload. */
  datatype Pending = Pending(bit: Bit, payload: string)

  /**
   * The first iteration of `reliable_send` / `send_reliable`: read the next
   * send bit, clear its event and transmit the tagged packet.
   */
  function SendStart(ep: Endpoint, payload: string): (r: (Endpoint, Pending, string))
    ensures r.1 == Pending(ep.nextSend, payload) && r.2 == MakePkt(ep.nextSend, payload)
    ensures !r.0.Acked(ep.nextSend) && r.0.Acked(Flip(ep.nextSend)) == ep.Acked(Flip(ep.nextSend))
    ensures r.0.expected == ep.expected && r.0.nextSend == ep.nextSend
  {
    (ep.WithAck(ep.nextSend, false), Pending(ep.nextSend, payload), MakePkt(ep.nextSend, payload))
  }

  /** How one `wait(TIMEOUT)` of a reliable send ends. */
  datatype WaitOutcome =
    | Acknowledged(ep: Endpoint)
    | Resend(ep: Endpoint, next: Pending, pkt: string)

  /**
   * One return of `ack_event.wait(TIMEOUT)`: if the event of the pending
   * bit is set, the send bit is flipped and the send succeeds; otherwise
   * the next loop iteration re-reads the send bit, clears its event and
   * transmits the payload again.
   */
  function AwaitAck(ep: Endpoint, w: Pending): (r: WaitOutcome)
    ensures r.Acknowledged? <==> ep.Acked(w.bit)
    ensures r.Acknowledged? ==>
      r.ep == ep.(nextSend := Flip(ep.nextSend))
    ensures r.Resend? ==>
      && r.ep.nextSend == ep.nextSend && r.ep.expected == ep.expected && !r.ep.Acked(ep.nextSend)
      && r.next == Pending(ep.nextSend, w.payload) && r.pkt == MakePkt(ep.nextSend, w.payload)
  {
    if ep.Acked(w.bit) then Acknowledged(ep.(nextSend := Flip(ep.nextSend)))
    else
      var (e, next, pkt) := SendStart(ep, w.payload);
      Resend(e, next, pkt)
  }

  /** The state after the receiver thread has handled `ps` (its outputs are not the sender's concern). */
  function ReceiveAll(ep: Endpoint, ps: seq<string>): (r: Endpoint)
    ensures r.nextSend == ep.nextSend
    ensures forall b: Bit {:trigger r.Acked(b)} :: r.Acked(b) <==> ep.Acked(b) || MakeAck(b) in ps
    decreases |ps|
  {
    if |ps| == 0 then ep
    else
      var e := ReceiveAll(ReceiveHunt(ep, ps[0]).ep, ps[1..]);
      assert forall b: Bit :: MakeAck(b) in ps <==> MakeAck(b) == ps[0] || MakeAck(b) in ps[1..];
      e
  }

  /** How a reliable send ended: final state, every transmission made, and whether it succeeded. */
  datatype SendRun = SendRun(ep: Endpoint, transmitted: seq<string>, acknowledged: bool)

  /**
   * The retry loop of a reliable send, waiting once per element of `rounds`;
   * `rounds[i]` is what arrived from the peer before the `i`-th wait ended.
   * The send succeeds at the first round that brought the ACK of its bit,
   * flipping the send bit exactly once; until then every retransmission is
   * the same packet.
   */
  function SendRounds(ep: Endpoint, w: Pending, rounds: seq<seq<string>>): (r: SendRun)
    requires ep.nextSend == w.bit && !ep.Acked(w.bit)
    ensures r.acknowledged <==> exists i :: 0 <= i < |rounds| && MakeAck(w.bit) in rounds[i]
    ensures r.ep.nextSend == (if r.acknowledged then Flip(w.bit) else w.bit)
    ensures forall k :: 0 <= k < |r.transmitted| ==> r.transmitted[k] == MakePkt(w.bit, w.payload)
    ensures |r.transmitted| <= |rounds|
    decreases |rounds|
  {
    if |rounds| == 0 then SendRun(ep, [], false)
    else
      match AwaitAck(ReceiveAll(ep, rounds[0]), w)
      case Acknowledged(e) => SendRun(e, [], true)
      case Resend(e, next, pkt) =>
        var rest := SendRounds(e, next, rounds[1..]);
        assert forall i :: 1 <= i < |rounds| ==> rounds[i] == rounds[1..][i - 1];
        SendRun(rest.ep, [pkt] + rest.transmitted, rest.acknowledged)
  }

  /**
   * A whole `reliable_send` (HuntCin `server.py`) / `send_reliable`
   * (`clients.py`, `client.py`): transmit, then wait round after round.
   */
  function ReliableSend(ep: Endpoint, payload: string, rounds: seq<seq<string>>): (r: SendRun)
    ensures r.acknowledged <==> exists i :: 0 <= i < |rounds| && MakeAck(ep.nextSend) in rounds[i]
    ensures r.ep.nextSend == (if r.acknowledged then Flip(ep.nextSend) else ep.nextSend)
    ensures |r.transmitted| >= 1
    ensures forall k :: 0 <= k < |r.transmitted| ==> r.transmitted[k] == MakePkt(ep.nextSend, payload)
  {
    var (e, w, pkt) := SendStart(ep, payload);
    var run := SendRounds(e, w, rounds);
    SendRun(run.ep, [pkt] + run.transmitted, run.acknowledged)
  }
}

=== FILE: client_app.dfy ===
/**
 * The application side of HuntCin `clients.py`: the login flag it derives
 * from the server's texts, and the local filtering of typed commands
 * before anything is sent. The alternating-bit engine under it is
 * `Channel` (`ReceiveHunt` and `ReliableSend`).
 */
module ClientApp {
  import opened Common
  import opened Text
  import opened Game
  import opened Session
  import opened Codec
  import opened Channel

  datatype ClientState = ClientState(loggedIn: bool, myName: Option<string>)

  const Start: ClientState := ClientState(false, None)

  const OnlineText: string := "você está online!"
  const LogoutPrefix: string := "logout efetuado"

  /**
   * The login bookkeeping `receiver_thread` does for each delivered text:
   * exactly the stripped, lower-cased confirmation logs in; a text that
   * starts with the logout confirmation logs out and forgets the name.
   */
  function OnText(st: ClientState, msg: string): (r: ClientState)
    ensures Lower(Strip(msg)) == OnlineText ==> r.loggedIn && r.myName == st.myName
    ensures StartsWith(Lower(Strip(msg)), LogoutPrefix) ==> !r.loggedIn && r.myName.None?
    ensures Lower(Strip(msg)) != OnlineText && !StartsWith(Lower(Strip(msg)), LogoutPrefix) ==> r == st
  {
    ConfirmationsDiffer();
    var t := Lower(Strip(msg));
    var st1 := if t == OnlineText then st.(loggedIn := true) else st;
    if StartsWith(t, LogoutPrefix) then st1.(loggedIn := false, myName := None) else st1
  }

  /** Why a typed line is answered locally instead of being sent. */
  datatype LocalNotice = LoginUsage | NotLoggedIn | NeedsLogin | MoveUsage | UnknownCommand

  datatype Action =
    | Skip                             // a blank line
    | Exit(farewell: Option<string>)   // `exit`: a final `logout` is sent when logged in
    | Send(text: string)               // handed to `send_reliable`
    | Refuse(why: LocalNotice)         // printed locally, nothing sent

  /**
   * `interactive_loop` for the words of one typed line. `login` and `exit`
   * are always available; `logout` and every other command need the login
   * flag; a `move` goes out only with exactly one of the four directions.
   * Texts are sent as their words joined by single blanks, which is what
   * `f"login {name}"` with `name = " ".join(parts[1:])` and
   * `f"move {direction}"` produce.
   */
  function Decide(st: ClientState, parts: seq<string>): (r: (Action, ClientState))
    ensures r.0.Send? && !st.loggedIn ==> r.1.myName.Some? && |parts| >= 2 && Lower(parts[0]) == "login"
    ensures !r.0.Send? ==> r.1 == st
    ensures r.1.loggedIn != st.loggedIn ==> r.0 == Send("logout") && st.loggedIn
    ensures r.0 == Skip <==> |parts| == 0
    ensures r.0.Send? ==> |parts| > 0 && Lower(parts[0]) in {"login", "logout", "move", "hint", "suggest"}
    ensures |parts| > 0 && Lower(parts[0]) == "exit" ==> r == (Exit(if st.loggedIn then Some("logout") else None), st)
    ensures |parts| > 0 && Lower(parts[0]) == "login" ==>
      r == if |parts| >= 2 then (Send(Join(["login"] + parts[1..])), st.(myName := Some(Join(parts[1..]))))
           else (Refuse(LoginUsage), st)
    ensures |parts| > 0 && Lower(parts[0]) == "logout" ==>
      r == if st.loggedIn then (Send("logout"), ClientState(false, None)) else (Refuse(NotLoggedIn), st)
    ensures |parts| > 0 && !st.loggedIn && Lower(parts[0]) !in {"exit", "login", "logout"} ==>
      r == (Refuse(NeedsLogin), st)
    ensures |parts| > 0 && st.loggedIn && Lower(parts[0]) == "move" ==>
      r == if |parts| == 2 && IsDirection(Lower(parts[1])) then (Send(Join(["move", Lower(parts[1])])), st)
           else (Refuse(MoveUsage), st)
    ensures r.0.Send? && |parts| > 0 && Lower(parts[0]) == "move" ==>
      |parts| == 2 && IsDirection(Lower(parts[1])) && r.0.text == Join(["move", Lower(parts[1])])
    ensures r.0.Exit? ==> |parts| > 0 && Lower(parts[0]) == "exit"
    ensures |parts| > 0 && st.loggedIn && Lower(parts[0]) in {"hint", "suggest"} ==> r == (Send(Lower(parts[0])), st)
    ensures |parts| > 0 && Lower(parts[0]) !in {"exit", "login", "logout", "move", "hint", "suggest"} ==>
      r.0 == Refuse(if st.loggedIn then UnknownCommand else NeedsLogin)
  {
    if |parts| == 0 then (Skip, st)
    else
      var cmd := Lower(parts[0]);
      if cmd == "exit" then (Exit(if st.loggedIn then Some("logout") else None), st)
      else if cmd == "login" then
        if |parts| < 2 then (Refuse(LoginUsage), st)
        else (Send(Join(["login"] + parts[1..])), st.(myName := Some(Join(parts[1..]))))
      else if cmd == "logout" then
        if !st.loggedIn then (Refuse(NotLoggedIn), st)
        else (Send("logout"), st.(loggedIn := false, myName := None))
      else if !st.loggedIn then (Refuse(NeedsLogin), st)
      else if cmd == "move" then
        if |parts| != 2 || !IsDirection(Lower(parts[1])) then (Refuse(MoveUsage), st)
        else (Send(Join(["move", Lower(parts[1])])), st)
      else if cmd == "hint" then (Send("hint"), st)
      else if cmd == "suggest" then (Send("suggest"), st)
      else (Refuse(UnknownCommand), st)
  }

  /** One typed line: `input().strip()`, `split()`, then the decision. */
  function Interpret(st: ClientState, line: string): (r: (Action, ClientState)) {
    Decide(st, Words(Strip(line)))
  }

  /** A bare keyword is dispatched on itself alone. */
  lemma KeywordParses(w: string)
    requires |w| > 0 && NoBlanks(w)
    ensures IsWord(w) && ParseCommand(w) == CommandOf([w])
  {
    NoBlanksIsWord(w);
    assert Join([w]) == w;
    ParseJoin([w]);
  }

  lemma LogoutParses()
    ensures ParseCommand("logout") == Logout
  {
    KeywordParses("logout");
    assert Lower("logout") == "logout";
  }

  lemma HintParses()
    ensures ParseCommand("hint") == Ask(HintHelp)
  {
    KeywordParses("hint");
    assert Lower("hint") == "hint";
  }

  lemma SuggestParses()
    ensures ParseCommand("suggest") == Ask(SuggestHelp)
  {
    KeywordParses("suggest");
    assert Lower("suggest") == "suggest";
  }

  /** A keyword in front of words gives words. */
  lemma PrependWord(k: string, ws: seq<string>)
    requires IsWord(k) && forall i :: 0 <= i < |ws| ==> IsWord(ws[i])
    ensures forall i :: 0 <= i < |[k] + ws| ==> IsWord(([k] + ws)[i])
  {
    var parts := [k] + ws;
    forall i | 0 <= i < |parts| ensures IsWord(parts[i]) {
      if i > 0 { assert parts[i] == ws[i - 1]; }
    }
  }

  /** Words led by `login` and at least one more are dispatched as a login under the rest joined by single blanks. */
  lemma LoginDispatch(parts: seq<string>)
    requires |parts| >= 2 && forall i :: 0 <= i < |parts| ==> IsWord(parts[i])
    requires Lower(parts[0]) == "login"
    ensures CommandOf(parts) == Login(Join(parts[1..]))
  {
    JoinedWordsAreStripped(parts[1..]);
  }

  lemma LoginCommand(ws: seq<string>)
    requires |ws| > 0 && forall i :: 0 <= i < |ws| ==> IsWord(ws[i])
    ensures var parts := ["login"] + ws;
      (forall i :: 0 <= i < |parts| ==> IsWord(parts[i])) && CommandOf(parts) == Login(Join(ws))
  {
    var parts := ["login"] + ws;
    NoBlanksIsWord("login");
    PrependWord("login", ws);
    assert parts[0] == "login" && parts[1..] == ws;
    assert Lower("login") == "login";
    LoginDispatch(parts);
  }

  /** The text `login` followed by words is parsed as a login under those words joined by single blanks. */
  lemma LoginParses(text: string, ws: seq<string>)
    requires |ws| > 0 && forall i :: 0 <= i < |ws| ==> IsWord(ws[i])
    requires text == Join(["login"] + ws)
    ensures ParseCommand(text) == Login(Join(ws))
  {
    LoginCommand(ws);
    ParseJoin(["login"] + ws);
  }

  /** The four direction names are lower-case words. */
  lemma DirectionIsWord(d: string)
    requires IsDirection(d)
    ensures IsWord(d) && Lower(d) == d
  {
    if d == "up" {
      LowerWord("up");
    } else if d == "down" {
      LowerWord("down");
    } else if d == "left" {
      LowerWord("left");
    } else {
      LowerWord("right");
    }
  }

  /** The words of a move in one of the four directions are dispatched as that move. */
  lemma MoveCommand(d: string)
    requires IsDirection(d)
    ensures IsWord(d) && IsWord("move") && CommandOf(["move", d]) == Move(d)
  {
    DirectionIsWord(d);
    NoBlanksIsWord("move");
    assert Lower("move") == "move";
  }

  /** The text `move` followed by one direction is parsed as that move. */
  lemma MoveParses(text: string, d: string)
    requires IsDirection(d) && text == Join(["move", d])
    ensures ParseCommand(text) == Move(d)
  {
    MoveCommand(d);
    var ws := ["move", d];
    assert forall i :: 0 <= i < |ws| ==> IsWord(ws[i]);
    ParseJoin(ws);
  }

  /**
   * Every text the client sends is a command the server understands as
   * the client meant it: a login under exactly the name the client
   * remembers, a move in one of the four directions (so it is never
   * rejected as invalid at the round's end), or a bare keyword; and a
   * client that is not logged in sends nothing but a login.
   */
  lemma SentWordsParse(st: ClientState, parts: seq<string>)
    requires forall i :: 0 <= i < |parts| ==> IsWord(parts[i])
    requires Decide(st, parts).0.Send?
    ensures var r := Decide(st, parts);
      var c := ParseCommand(r.0.text);
      && !c.Blank? && !c.Unknown?
      && (c.Login? ==> r.1.myName == Some(c.name))
      && (c.Move? ==> IsDirection(c.direction))
      && (!st.loggedIn ==> c.Login?)
      && c == CommandOf(parts)
  {
    var cmd := Lower(parts[0]);
    var text := Decide(st, parts).0.text;
    if cmd == "login" {
      LoginParses(text, parts[1..]);
    } else if cmd == "logout" {
      LogoutParses();
    } else if cmd == "move" {
      MoveParses(text, Lower(parts[1]));
    } else if cmd == "hint" {
      HintParses();
    } else {
      SuggestParses();
    }
  }

  lemma SentTextParses(st: ClientState, line: string)
    requires Interpret(st, line).0.Send?
    ensures var r := Interpret(st, line);
      var c := ParseCommand(r.0.text);
      && !c.Blank? && !c.Unknown?
      && (c.Login? ==> r.1.myName == Some(c.name))
      && (c.Move? ==> IsDirection(c.direction))
      && (!st.loggedIn ==> c.Login?)
      && c == CommandOf(Words(Strip(line)))
  {
    SentWordsParse(st, Words(Strip(line)));
  }

  lemma OnlineTextNoUpper()
    ensures NoUpper(OnlineText)
  {
    VoceNoUpper();
    EstaNoUpper();
    OnlineNoUpper();
    NoUpperConcat("você ", "está ");
    NoUpperConcat("você " + "está ", "online!");
    OnlineTextPieces();
  }

  lemma OnlineTextPieces()
    ensures "você " + "está " + "online!" == OnlineText
  {
  }

  lemma VoceNoUpper()
    ensures NoUpper("você ")
  {
  }

  lemma EstaNoUpper()
    ensures NoUpper("está ")
  {
  }

  lemma OnlineNoUpper()
    ensures NoUpper("online!")
  {
  }

  lemma LogoutTextNoUpper()
    ensures NoUpper("logout efetuado.")
  {
    assert NoUpper("logout ") && NoUpper("efetuado.");
    NoUpperConcat("logout ", "efetuado.");
    LogoutTextPieces();
  }

  lemma LogoutTextPieces()
    ensures "logout " + "efetuado." == "logout efetuado."
  {
  }

  lemma OnlineTextUnpadded()
    ensures !IsSpace(OnlineText[0]) && !IsSpace(OnlineText[|OnlineText| - 1])
  {
  }

  lemma LogoutTextUnpadded()
    ensures var t := "logout efetuado."; !IsSpace(t[0]) && !IsSpace(t[|t| - 1])
  {
  }

  lemma OnlineTextCanonical(msg: string)
    requires msg == OnlineText
    ensures Lower(Strip(msg)) == msg
  {
    OnlineTextNoUpper();
    OnlineTextUnpadded();
    Canonical(msg);
  }

  lemma LogoutTextCanonical(msg: string)
    requires msg == "logout efetuado."
    ensures Lower(Strip(msg)) == msg
  {
    LogoutTextNoUpper();
    LogoutTextUnpadded();
    Canonical(msg);
  }

  lemma ConfirmationsDiffer()
    ensures !StartsWith(OnlineText, LogoutPrefix)
    ensures "logout efetuado." != OnlineText && StartsWith("logout efetuado.", LogoutPrefix)
  {
    assert OnlineText[0] != LogoutPrefix[0];
    assert "logout efetuado."[0] != OnlineText[0];
    assert "logout efetuado."[..|LogoutPrefix|] == LogoutPrefix;
  }

  /** The server's login confirmation sets the flag and keeps the name. */
  lemma OnlineConfirmationLogsIn(st: ClientState)
    ensures OnText(st, ReplyText(NowOnline)) == st.(loggedIn := true)
  {
    OnlineTextCanonical(ReplyText(NowOnline));
    ConfirmationsDiffer();
  }

  /** The server's logout confirmation clears the flag and the name. */
  lemma LogoutConfirmationLogsOut(st: ClientState)
    ensures OnText(st, ReplyText(LoggedOut)) == ClientState(false, None)
  {
    LogoutTextCanonical(ReplyText(LoggedOut));
    ConfirmationsDiffer();
  }

  /** A text whose first character is neither blank nor a `v` or `l` in any case leaves the login state alone. */
  lemma FirstCharacterDecides(st: ClientState, msg: string)
    requires |msg| > 0 && !IsSpace(msg[0]) && LowerChar(msg[0]) != 'v' && LowerChar(msg[0]) != 'l'
    ensures OnText(st, msg) == st
  {
    StripKeepsFirst(msg);
    var t := Lower(Strip(msg));
    assert t[0] == LowerChar(msg[0]);
    assert OnlineText[0] == 'v' && LogoutPrefix[0] == 'l';
  }

  /**
   * No reply other than the two confirmations changes the client's login
   * state: errors, move receipts and clues all leave it alone.
   */
  lemma OtherRepliesKeepLogin(st: ClientState, r: Reply)
    requires r != NowOnline && r != LoggedOut
    ensures OnText(st, ReplyText(r)) == st
  {
    FirstCharacterDecides(st, ReplyText(r));
  }

  /** No broadcast with a fixed wording (join, leave and round notices) changes the client's login state. */
  lemma NoticesKeepLogin(st: ClientState, n: Notice)
    ensures NoticeText(n).Some? ==> OnText(st, NoticeText(n).value) == st
  {
    if NoticeText(n).Some? {
      var u := NoticeText(n).value;
      assert u[0] == '[';
      FirstCharacterDecides(st, u);
    }
  }

  /**
   * One packet from the server through `receiver_thread`: the
   * alternating-bit receiver decides whether a text is delivered, and only
   * a delivered text reaches the login bookkeeping.
   */
  function OnPacket(ep: Endpoint, st: ClientState, p: string): (r: (Endpoint, ClientState, seq<string>))
    ensures r.0 == ReceiveHunt(ep, p).ep && r.2 == ReceiveHunt(ep, p).sent
    ensures ReceiveHunt(ep, p).delivered.Some? ==> r.1 == OnText(st, ReceiveHunt(ep, p).delivered.value)
  {
    var step := ReceiveHunt(ep, p);
    match step.delivered
    case Some(text) => (step.ep, OnText(st, text), step.sent)
    case None => (step.ep, st, step.sent)
  }

  /**
   * An ACK token, a malformed packet or a retransmission of the previous
   * bit never reaches the login bookkeeping: the flag and the name stay.
   */
  lemma UndeliveredKeepsLogin(ep: Endpoint, st: ClientState, p: string)
    requires AckToken(p).Some? || !Parse(p).Data? || Parse(p).num != ep.expected
    ensures OnPacket(ep, st, p).1 == st
  {
  }

  /**
   * A text framed under the expected bit reaches the login bookkeeping
   * once; the same packet arriving again (the server retransmits when its
   * ACK is lost) is only re-acknowledged and changes nothing more.
   */
  lemma PacketAppliedOnce(ep: Endpoint, st: ClientState, text: string)
    ensures var p := MakePkt(ep.expected, text);
      var first := OnPacket(ep, st, p);
      var again := OnPacket(first.0, first.1, p);
      first.1 == OnText(st, text) && first.2 == [MakeAck(ep.expected)]
      && again.1 == first.1 && again.0 == first.0 && again.2 == [MakeAck(ep.expected)]
  {
    var p := MakePkt(ep.expected, text);
    ParseMakePkt(ep.expected, text);
    var step := ReceiveHunt(ep, p);
    assert step.delivered == Some(text);
    assert Flip(step.ep.expected) == ep.expected;
  }

  /** The login confirmation logs the client in, and a retransmission of it changes nothing more. */
  lemma ConfirmationPacketLogsInOnce(ep: Endpoint, st: ClientState)
    ensures var p := MakePkt(ep.expected, ReplyText(NowOnline));
      var first := OnPacket(ep, st, p);
      OnPacket(first.0, first.1, p).1 == first.1 == st.(loggedIn := true)
  {
    PacketAppliedOnce(ep, st, ReplyText(NowOnline));
    OnlineConfirmationLogsIn(st);
  }
}

=== FILE: codec.dfy ===
/**
 * The wire form shared by every variant of the protocol.
 *
 * A data packet is the ASCII decimal sequence number, a `|` separator and
 * the payload (`make_pkt`). An acknowledgement is one of the two fixed
 * four-byte tokens `ACK0` / `ACK1` (`make_ack`, `make_ack_bytes`). Parsing
 * (`extract_pkt`) splits at the FIRST separator, so the payload may itself
 * contain `|`. The variants only differ in how they report a malformed
 * packet, which is why one `Parse` is wrapped three times below.
 */
module Codec {
  import opened Common
  import opened Text

  const Separator: char := '|'
  const Ack0: string := "ACK0"
  const Ack1: string := "ACK1"

  /** `make_pkt(seq_num, data)`: `str(seq_num)`, then `|`, then the payload. */
  function MakePkt(num: nat, data: string): (p: string)
    ensures Separator in p
    ensures p != Ack0 && p != Ack1
  {
    var p := Decimal(num) + [Separator] + data;
    assert p[|Decimal(num)|] == Separator;
    p
  }

  /** `make_ack(seq_num)` / `make_ack_bytes(seq_num)`: `ACK0` for 0 and `ACK1` for every other value. */
  function MakeAck(num: int): (a: string)
    ensures a == Ack0 || a == Ack1
    ensures a == Ack0 <==> num == 0
  {
    if num == 0 then Ack0 else Ack1
  }

  /** The bit a received acknowledgement token names; `None` for anything else. */
  function AckToken(p: string): (r: Option<Bit>)
    ensures r.None? <==> p != Ack0 && p != Ack1
    ensures r.Some? ==> MakeAck(r.value) == p
  {
    if p == Ack0 then Some(0) else if p == Ack1 then Some(1) else None
  }

  /** `bytes.find(c)`: the index of the first occurrence of `c`, or -1. */
  function Find(s: string, c: char): (i: int)
    ensures -1 <= i < |s|
    ensures i == -1 <==> c !in s
    ensures 0 <= i ==> s[i] == c && c !in s[..i]
  {
    if |s| == 0 then -1
    else if s[0] == c then 0
    else
      var j := Find(s[1..], c);
      assert s[1..][..(if j < 0 then 0 else j)] == s[1..(if j < 0 then 1 else j + 1)];
      if j == -1 then -1 else j + 1
  }

  /** `k` is the position of the first separator in `p`. */
  predicate FirstSeparator(p: string, k: int) {
    0 <= k < |p| && p[k] == Separator && Separator !in p[..k]
  }

  /** What a received buffer turns out to be once it is known not to be an ACK token. */
  datatype Frame =
    | Data(num: nat, payload: string)  // a digit prefix, the first `|`, and the rest
    | NoSeparator                      // no `|` anywhere
    | BadPrefix                        // the text before the first `|` is not a number

  /** The parsing common to every `extract_pkt`. */
  function Parse(p: string): (f: Frame)
    ensures f.NoSeparator? <==> Separator !in p
    ensures f.Data? <==> exists k :: FirstSeparator(p, k) && ParseDecimal(p[..k]).Some?
    ensures f.Data? ==>
      var k := |p| - |f.payload| - 1;
      FirstSeparator(p, k) && ParseDecimal(p[..k]) == Some(f.num) && p[k + 1..] == f.payload
  {
    var k := Find(p, Separator);
    if k == -1 then NoSeparator
    else
      assert FirstSeparator(p, k);
      match ParseDecimal(p[..k])
      case Some(n) => Data(n, p[k + 1..])
      case None => BadPrefix
  }

  /** HuntCin `server.py` / `clients.py` `extract_pkt`: `(None, packet)` on malformed input. */
  function ExtractHunt(p: string): (r: (Option<nat>, string))
    ensures r.0.None? <==> !Parse(p).Data?
    ensures r.0.None? ==> r.1 == p
    ensures Parse(p).Data? ==> r == (Some(Parse(p).num), Parse(p).payload)
  {
    match Parse(p)
    case Data(n, d) => (Some(n), d)
    case _ => (None, p)
  }

  /** HuntCin `client.py` `extract_pkt`: `(None, None)` on malformed input. */
  function ExtractClient(p: string): (r: (Option<nat>, Option<string>))
    ensures r.0.None? <==> !Parse(p).Data?
    ensures r.0.None? <==> r.1.None?
    ensures Parse(p).Data? ==> r == (Some(Parse(p).num), Some(Parse(p).payload))
  {
    match Parse(p)
    case Data(n, d) => (Some(n), Some(d))
    case _ => (None, None)
  }

  /** `RDT_3.0` `extract_pkt`: `-1` when there is no separator, `-2` when the prefix is not a number. */
  function ExtractRdt(p: string): (r: (int, string))
    ensures r.0 == -1 <==> Separator !in p
    ensures r.0 == -2 <==> Separator in p && !Parse(p).Data?
    ensures r.0 < 0 ==> r.1 == p
    ensures Parse(p).Data? ==> r == (Parse(p).num as int, Parse(p).payload)
  {
    match Parse(p)
    case Data(n, d) => (n as int, d)
    case NoSeparator => (-1, p)
    case BadPrefix => (-2, p)
  }

  /** Parsing undoes framing for every sequence number, whatever `|` the payload holds. */
  lemma {:induction false} ParseMakePkt(num: nat, data: string)
    ensures Parse(MakePkt(num, data)) == Data(num, data)
  {
    var d := Decimal(num);
    var p := MakePkt(num, data);
    var k := |d|;
    assert p[..k] == d;
    assert Separator !in p[..k] by {
      forall j | 0 <= j < k ensures p[..k][j] != Separator {
        assert IsDigit(d[j]);
      }
    }
    assert FirstSeparator(p, k);
    DecimalRoundTrip(num);
    assert p[k + 1..] == data;
  }

  /** `extract_pkt(make_pkt(b, d)) == (b, d)` in the HuntCin server and multi-client variants. */
  lemma HuntRoundTrip(num: nat, data: string)
    ensures ExtractHunt(MakePkt(num, data)) == (Some(num), data)
  {
    ParseMakePkt(num, data);
  }

  /** The same round trip for HuntCin `client.py`. */
  lemma ClientRoundTrip(num: nat, data: string)
    ensures ExtractClient(MakePkt(num, data)) == (Some(num), Some(data))
  {
    ParseMakePkt(num, data);
  }

  /** The same round trip for the `RDT_3.0` file-transfer scripts. */
  lemma RdtRoundTrip(num: nat, data: string)
    ensures ExtractRdt(MakePkt(num, data)) == (num as int, data)
  {
    ParseMakePkt(num, data);
  }

  /** Framing is injective: equal packets carry equal sequence numbers and payloads. */
  lemma MakePktInjective(s1: nat, d1: string, s2: nat, d2: string)
    requires MakePkt(s1, d1) == MakePkt(s2, d2)
    ensures s1 == s2 && d1 == d2
  {
    ParseMakePkt(s1, d1);
    ParseMakePkt(s2, d2);
  }

  /** The ACK tokens carry no separator, so a parser never mistakes them for data. */
  lemma AckTokensAreNotData(b: Bit)
    ensures Parse(MakeAck(b)).NoSeparator?
    ensures ExtractRdt(MakeAck(b)).0 == -1
  {
    var a := MakeAck(b);
    assert a[0] != Separator && a[1] != Separator && a[2] != Separator && a[3] != Separator;
  }

  /** `make_ack(b)` is the text `'ACK' + str(b)` the RDT sender compares against, and the token it names is `b`. */
  lemma MakeAckSpellsBit(b: Bit)
    ensures MakeAck(b) == "ACK" + Decimal(b)
    ensures AckToken(MakeAck(b)) == Some(b)
  {
  }
}

=== FILE: common.dfy ===
/**
 * Small shared vocabulary: an optional value and the one-bit sequence
 * numbers of the alternating-bit protocol.
 */
module Common {

  /** A value that may be absent (Python's `None`). */
  datatype Option<+T> = None | Some(value: T)

  /** The sequence numbers the protocol ever puts on the wire. */
  type Bit = b: int | 0 <= b <= 1

  /** `1 - b`, the other bit. */
  function Flip(b: Bit): (r: Bit)
    ensures r != b
  {
    1 - b
  }

  /** The bit the n-th message of a run is sent under, counting from 0. */
  function BitOf(n: nat): Bit {
    n % 2
  }

  /** Consecutive messages go under opposite bits. */
  lemma BitOfNext(n: nat)
    ensures BitOf(n + 1) == Flip(BitOf(n))
  {
  }
}

=== FILE: concurrent_sends.dfy ===
/**
 * `broadcast_message` in HuntCin `server.py` starts one `reliable_send`
 * thread per message and peer, so two sends to the same peer can be in
 * progress at once. Both read the same `next_seq_send`, both wait on the
 * same per-bit event, and each flips the shared bit when it succeeds.
 * One schedule of that race is replayed here with the very transitions of
 * `Channel`: both sends report success, the peer receives only the first
 * message, and the bits end up out of step so the next message is taken
 * for a duplicate as well.
 *
 * `AlternatingBit.DeliversPrefixInOrder` is the protocol with sends to one
 * peer serialised, where every successful send was delivered.
 */
module ConcurrentSends {
  import opened Common
  import opened Codec
  import opened Channel

  datatype Schedule = Schedule(
    firstOk: bool,          // the first `reliable_send` returned True
    secondOk: bool,         // the second `reliable_send` returned True
    delivered: seq<string>, // what the peer's application was handed
    senderBit: Bit,         // `next_seq_send` for that peer afterwards
    receiverExpects: Bit)   // the bit the peer expects next

  function Handed(r: Step): seq<string> {
    if r.delivered.Some? then [r.delivered.value] else []
  }

  /**
   * Both sends start before any ACK arrives; the peer receives the first
   * packet and acknowledges it; the ACK sets the shared event; both waits
   * then end; finally the second packet reaches the peer.
   */
  function TwoSendsShareOneBit(a: string, b: string): Schedule {
    var (e1, wa, pa) := SendStart(Fresh, a);
    var (e2, wb, pb) := SendStart(e1, b);
    var r1 := ReceiveHunt(Fresh, pa);
    var e3 := ReceiveAll(e2, r1.sent);
    var endA := AwaitAck(e3, wa);
    var endB := AwaitAck(endA.ep, wb);
    var r2 := ReceiveHunt(r1.ep, pb);
    Schedule(endA.Acknowledged?, endB.Acknowledged?, Handed(r1) + Handed(r2), endB.ep.nextSend, r2.ep.expected)
  }

  /** Both sends succeed, the second message is never delivered, and the bits are left out of step. */
  lemma ConcurrentSendsLoseMessage(a: string, b: string)
    ensures var r := TwoSendsShareOneBit(a, b);
      r.firstOk && r.secondOk && r.delivered == [a] && r.senderBit != r.receiverExpects
  {
    ParseMakePkt(0, a);
    ParseMakePkt(0, b);
    assert ReceiveHunt(Fresh, MakePkt(0, a)).sent == [MakeAck(0)];
  }
}

=== FILE: file_transfer.dfy ===
/**
 * The file transfer of `RDT_3.0`: the sender reads its file in pieces of
 * at most 1024 bytes and moves on to the next piece only when the reply is
 * exactly `ACK` followed by its bit, counting packets and bytes as it goes;
 * the receiver appends each in-order payload to its file and stops once
 * the byte count reaches the size announced before the transfer. Both
 * directions of the echo (client to server, and back) run the same code.
 *
 * A file is a string here, one character per byte, like the payloads of
 * `Codec`. The receive transition itself is `Channel.ReceiveRdt`.
 */
module FileTransfer {
  import opened Common
  import opened Text
  import opened Codec
  import opened Channel

  /** The argument of `read(1024)`. */
  const ChunkSize: nat := 1024

  function Concat(cs: seq<string>): string {
    if |cs| == 0 then "" else cs[0] + Concat(cs[1..])
  }

  lemma {:induction false} ConcatAppend(a: seq<string>, b: seq<string>)
    ensures Concat(a + b) == Concat(a) + Concat(b)
  {
    if |a| == 0 {
      assert a + b == b;
    } else {
      ConcatAppend(a[1..], b);
      assert (a + b)[1..] == a[1..] + b;
    }
  }

  /** Concatenating the first k+1 pieces adds the (k+1)-th to the first k. */
  lemma ConcatPrefixStep(cs: seq<string>, k: nat)
    requires k < |cs|
    ensures Concat(cs[..k + 1]) == Concat(cs[..k]) + cs[k]
  {
    assert cs[..k + 1] == cs[..k] + [cs[k]];
    ConcatAppend(cs[..k], [cs[k]]);
    assert Concat([cs[k]]) == cs[k] + Concat([]);
  }

  /**
   * The pieces successive `read(1024)` calls return until the empty read:
   * none empty, all full except possibly the last, one per started KiB,
   * and together exactly the file.
   */
  function Chunks(f: string): (cs: seq<string>)
    ensures forall i :: 0 <= i < |cs| ==> 0 < |cs[i]| <= ChunkSize
    ensures forall i :: 0 <= i < |cs| - 1 ==> |cs[i]| == ChunkSize
    ensures |cs| == (|f| + ChunkSize - 1) / ChunkSize
    ensures Concat(cs) == f
    decreases |f|
  {
    if |f| == 0 then []
    else if |f| <= ChunkSize then
      assert Concat([f]) == f + Concat([]);
      [f]
    else
      var rest := Chunks(f[ChunkSize..]);
      var cs := [f[..ChunkSize]] + rest;
      assert cs[1..] == rest;
      assert f[..ChunkSize] + f[ChunkSize..] == f;
      cs
  }

  // ---------------------------------------------------------------------
  // Sender
  // ---------------------------------------------------------------------

  /**
   * The sender loop's variables: `next_seq_num_send`, the index of the
   * piece in hand, `pacotes_enviados` and `total_enviado`.
   */
  datatype Sender = Sender(next: Bit, index: nat, packets: nat, bytes: nat)

  const SenderStart: Sender := Sender(0, 0, 0, 0)

  /** `f'ACK{next_seq_num_send}'`, the only reply that lets the sender move on. */
  function AckText(b: Bit): string {
    "ACK" + Decimal(b)
  }

  /**
   * One pass of the inner retry loop: the packet may be lost on the way
   * out; the reply is the decoded datagram, or `None` when `recvfrom`
   * gives up.
   */
  datatype Attempt = Attempt(lost: bool, reply: Option<string>)

  /**
   * One pass of the inner loop: transmit the piece in hand under the
   * current bit (unless the loss simulation drops it), then advance to the
   * next piece, flip the bit and update both counters on the matching reply
   * only; any other reply, or none, leaves every variable as it was.
   */
  function SendAttempt(s: Sender, chunks: seq<string>, a: Attempt): (r: (Sender, seq<string>))
    requires s.index < |chunks|
    ensures r.1 == [] <==> a.lost
    ensures forall k :: 0 <= k < |r.1| ==> r.1[k] == MakePkt(s.next, chunks[s.index])
    ensures r.0.index != s.index <==> a.reply == Some(AckText(s.next))
    ensures r.0.index == s.index ==> r.0 == s
    ensures r.0.index != s.index ==>
      r.0.index == s.index + 1 && r.0.next == Flip(s.next) &&
      r.0.packets == s.packets + 1 && r.0.bytes == s.bytes + |chunks[s.index]|
  {
    var pkt := MakePkt(s.next, chunks[s.index]);
    var sent := if a.lost then [] else [pkt];
    if a.reply == Some(AckText(s.next)) then
      (Sender(Flip(s.next), s.index + 1, s.packets + 1, s.bytes + |chunks[s.index]|), sent)
    else
      (s, sent)
  }

  /**
   * The outer loop over a sequence of attempts: attempts are spent on the
   * piece in hand until it is acknowledged; once every piece is, the loop
   * has ended and the remaining attempts do nothing.
   */
  function SendFile(s: Sender, chunks: seq<string>, attempts: seq<Attempt>): (r: (Sender, seq<string>))
    requires s.index <= |chunks|
    ensures s.index <= r.0.index <= |chunks|
    ensures |r.1| <= |attempts|
    decreases |attempts|
  {
    if |attempts| == 0 || s.index == |chunks| then (s, [])
    else
      var (s1, sent) := SendAttempt(s, chunks, attempts[0]);
      var (s2, more) := SendFile(s1, chunks, attempts[1..]);
      (s2, sent + more)
  }

  /**
   * What the sender's counters mean: the bit is the parity of the pieces
   * acknowledged so far, `pacotes_enviados` counts them and
   * `total_enviado` is the number of their bytes.
   */
  predicate SenderOk(s: Sender, chunks: seq<string>) {
    s.index <= |chunks| && s.next == BitOf(s.index) && s.packets == s.index &&
    s.bytes == |Concat(chunks[..s.index])|
  }

  lemma SendAttemptKeeps(s: Sender, chunks: seq<string>, a: Attempt)
    requires SenderOk(s, chunks) && s.index < |chunks|
    ensures SenderOk(SendAttempt(s, chunks, a).0, chunks)
  {
    if SendAttempt(s, chunks, a).0.index != s.index {
      ConcatPrefixStep(chunks, s.index);
    }
  }

  lemma {:induction false} SendFileKeeps(s: Sender, chunks: seq<string>, attempts: seq<Attempt>)
    requires SenderOk(s, chunks)
    ensures SenderOk(SendFile(s, chunks, attempts).0, chunks)
    decreases |attempts|
  {
    if |attempts| > 0 && s.index < |chunks| {
      SendAttemptKeeps(s, chunks, attempts[0]);
      SendFileKeeps(SendAttempt(s, chunks, attempts[0]).0, chunks, attempts[1..]);
    }
  }

  /**
   * When the loop over the whole file has ended, the counters the final
   * message reports are the number of pieces and the size of the file.
   */
  lemma SenderTotals(s: Sender, f: string)
    requires SenderOk(s, Chunks(f)) && s.index == |Chunks(f)|
    ensures s.packets == (|f| + ChunkSize - 1) / ChunkSize
    ensures s.bytes == |f|
  {
    var cs := Chunks(f);
    assert cs[..s.index] == cs;
  }

  /**
   * `make_ack(b)`, the reply the receiver sends, is exactly the text the
   * sender waits for, so the two loops understand each other.
   */
  lemma ReceiverAckIsSenderText(b: Bit)
    ensures MakeAck(b) == AckText(b)
  {
    MakeAckSpellsBit(b);
  }

  /** The attempts of a run in which nothing is lost and piece k is acknowledged by the receiver at the first try. */
  function CleanAttempts(from: nat, stop: nat): (r: seq<Attempt>)
    requires from <= stop
    ensures |r| == stop - from
    ensures forall i :: 0 <= i < |r| ==> r[i] == Attempt(false, Some(MakeAck(BitOf(from + i))))
    decreases stop - from
  {
    if from == stop then [] else [Attempt(false, Some(MakeAck(BitOf(from))))] + CleanAttempts(from + 1, stop)
  }

  /** The packet the sender transmits for piece k. */
  function Packets(chunks: seq<string>, from: nat): (r: seq<string>)
    requires from <= |chunks|
    ensures |r| == |chunks| - from
    ensures forall i :: 0 <= i < |r| ==> r[i] == MakePkt(BitOf(from + i), chunks[from + i])
    decreases |chunks| - from
  {
    if from == |chunks| then [] else [MakePkt(BitOf(from), chunks[from])] + Packets(chunks, from + 1)
  }

  /**
   * With every packet and every reply getting through, the sender sends
   * each piece exactly once, in order, and ends the loop with the file
   * accounted for.
   */
  lemma {:induction false} CleanSendCompletes(s: Sender, chunks: seq<string>)
    requires SenderOk(s, chunks)
    ensures var r := SendFile(s, chunks, CleanAttempts(s.index, |chunks|));
      r.0.index == |chunks| && r.1 == Packets(chunks, s.index) && SenderOk(r.0, chunks)
    decreases |chunks| - s.index
  {
    var attempts := CleanAttempts(s.index, |chunks|);
    if s.index < |chunks| {
      var a := attempts[0];
      ReceiverAckIsSenderText(s.next);
      var s1 := SendAttempt(s, chunks, a).0;
      SendAttemptKeeps(s, chunks, a);
      assert attempts[1..] == CleanAttempts(s.index + 1, |chunks|);
      CleanSendCompletes(s1, chunks);
    }
  }

  // ---------------------------------------------------------------------
  // Receiver
  // ---------------------------------------------------------------------

  /**
   * The receiver loop's variables: the protocol endpoint (its expected
   * bit), the bytes written to the output file, `total_bytes` /
   * `total_recebido`, and `pacotes_recebidos` (kept by the client only).
   */
  datatype FileReceiver = FileReceiver(ep: Endpoint, written: string, total: nat, packets: nat)

  const ReceiverStart: FileReceiver := FileReceiver(Fresh, "", 0, 0)

  /**
   * One pass of the receive loop: an in-order payload is appended, its
   * length added and the packet counted; anything else writes nothing.
   * The replies are those of `ReceiveRdt`.
   */
  function ReceiveChunk(r: FileReceiver, p: string): (out: (FileReceiver, seq<string>))
    ensures var step := ReceiveRdt(r.ep, p);
      && out.0.ep == step.ep && out.1 == step.sent
      && (step.delivered.None? ==> out.0 == r.(ep := step.ep))
      && (step.delivered.Some? ==>
            out.0.written == r.written + step.delivered.value &&
            out.0.total == r.total + |step.delivered.value| && out.0.packets == r.packets + 1)
  {
    var step := ReceiveRdt(r.ep, p);
    match step.delivered
    case None => (r.(ep := step.ep), step.sent)
    case Some(d) => (FileReceiver(step.ep, r.written + d, r.total + |d|, r.packets + 1), step.sent)
  }

  /**
   * `while total < expected_size`: packets are taken in arrival order while
   * fewer bytes than announced have been written; the result also tells
   * how many packets the loop took before it ended.
   */
  function ReceiveFile(r: FileReceiver, size: nat, ps: seq<string>): (out: (FileReceiver, seq<string>, nat))
    ensures out.2 <= |ps|
    ensures r.total >= size ==> out == (r, [], 0)
    ensures out.2 < |ps| ==> out.0.total >= size
    ensures StartsWith(out.0.written, r.written)
    decreases |ps|
  {
    if r.total >= size || |ps| == 0 then (r, [], 0)
    else
      var first := ReceiveChunk(r, ps[0]);
      var rest := ReceiveFile(first.0, size, ps[1..]);
      assert StartsWith(first.0.written, r.written) by {
        var step := ReceiveRdt(r.ep, ps[0]);
        if step.delivered.Some? {
          StartsWithAppend(r.written, step.delivered.value);
        }
      }
      StartsWithTrans(r.written, first.0.written, rest.0.written);
      (rest.0, first.1 + rest.1, rest.2 + 1)
  }

  /** What the receiver's counters mean: the byte count is the size of what was written. */
  predicate ReceiverOk(r: FileReceiver) {
    r.total == |r.written|
  }

  lemma {:induction false} ReceiveFileKeeps(r: FileReceiver, size: nat, ps: seq<string>)
    requires ReceiverOk(r)
    ensures ReceiverOk(ReceiveFile(r, size, ps).0)
    decreases |ps|
  {
    if r.total < size && |ps| > 0 {
      ReceiveFileKeeps(ReceiveChunk(r, ps[0]).0, size, ps[1..]);
    }
  }

  /** The receiver state once the first k pieces of a clean run have been written. */
  function ReceivedSoFar(chunks: seq<string>, k: nat): FileReceiver
    requires k <= |chunks|
  {
    FileReceiver(Fresh.(expected := BitOf(k)), Concat(chunks[..k]), |Concat(chunks[..k])|, k)
  }

  /** The bytes of the pieces from k on are what is still missing from the file. */
  lemma RemainingBytes(chunks: seq<string>, k: nat)
    requires k <= |chunks|
    ensures |Concat(chunks)| == |Concat(chunks[..k])| + |Concat(chunks[k..])|
  {
    assert chunks == chunks[..k] + chunks[k..];
    ConcatAppend(chunks[..k], chunks[k..]);
  }

  /** Before the last piece has been written, fewer bytes than the file holds have been. */
  lemma PiecesLeft(chunks: seq<string>, k: nat)
    requires k < |chunks| && forall i :: 0 <= i < |chunks| ==> 0 < |chunks[i]|
    ensures |Concat(chunks[..k])| < |Concat(chunks)|
  {
    RemainingBytes(chunks, k);
    assert Concat(chunks[k..]) == chunks[k] + Concat(chunks[k + 1..]) by {
      assert chunks[k..][1..] == chunks[k + 1..];
    }
  }

  /** Piece k of a clean run is written and acknowledged under its own bit. */
  lemma CleanPieceArrives(chunks: seq<string>, k: nat)
    requires k < |chunks|
    ensures ReceiveChunk(ReceivedSoFar(chunks, k), MakePkt(BitOf(k), chunks[k])) ==
      (ReceivedSoFar(chunks, k + 1), [MakeAck(BitOf(k))])
  {
    ParseMakePkt(BitOf(k), chunks[k]);
    ConcatPrefixStep(chunks, k);
  }

  /** The replies of a clean run for pieces `from` up to `stop`. */
  function Acks(from: nat, stop: nat): (r: seq<string>)
    requires from <= stop
    ensures |r| == stop - from
    ensures forall i :: 0 <= i < |r| ==> r[i] == MakeAck(BitOf(from + i))
    decreases stop - from
  {
    if from == stop then [] else [MakeAck(BitOf(from))] + Acks(from + 1, stop)
  }

  /** One pass of the receive loop while bytes are still missing. */
  lemma ReceiveFileStep(r: FileReceiver, size: nat, ps: seq<string>)
    requires r.total < size && |ps| > 0
    ensures var (r1, acks) := ReceiveChunk(r, ps[0]);
      var rest := ReceiveFile(r1, size, ps[1..]);
      ReceiveFile(r, size, ps) == (rest.0, acks + rest.1, rest.2 + 1)
  {
  }

  /**
   * The size check ends the loop exactly at the last piece: fed the
   * sender's packets from piece k on, with the size of all pieces
   * announced, the receiver writes the rest of them, takes every packet
   * and acknowledges each under its bit.
   */
  lemma {:induction false} CleanReceiveCompletes(chunks: seq<string>, k: nat)
    requires k <= |chunks| && forall i :: 0 <= i < |chunks| ==> 0 < |chunks[i]|
    ensures ReceiveFile(ReceivedSoFar(chunks, k), |Concat(chunks)|, Packets(chunks, k)) ==
      (ReceivedSoFar(chunks, |chunks|), Acks(k, |chunks|), |chunks| - k)
    decreases |chunks| - k
  {
    var ps := Packets(chunks, k);
    if k < |chunks| {
      PiecesLeft(chunks, k);
      ReceiveFileStep(ReceivedSoFar(chunks, k), |Concat(chunks)|, ps);
      CleanPieceArrives(chunks, k);
      assert ps[1..] == Packets(chunks, k + 1);
      CleanReceiveCompletes(chunks, k + 1);
    } else {
      assert chunks[..k] == chunks;
    }
  }

  /**
   * A clean transfer is exact: the receiver ends with the sender's file,
   * both loops end, and the byte counts on both sides equal its size.
   */
  lemma CleanTransferIsExact(f: string)
    ensures var cs := Chunks(f);
      var sent := SendFile(SenderStart, cs, CleanAttempts(0, |cs|));
      var recv := ReceiveFile(ReceiverStart, |f|, sent.1);
      && sent.0.index == |cs| && sent.0.bytes == |f| && sent.0.packets == |cs|
      && recv.0.written == f && recv.0.total == |f| && recv.2 == |sent.1|
  {
    var cs := Chunks(f);
    assert SenderOk(SenderStart, cs);
    CleanSendCompletes(SenderStart, cs);
    var sent := SendFile(SenderStart, cs, CleanAttempts(0, |cs|));
    SenderTotals(sent.0, f);
    assert ReceivedSoFar(cs, 0) == ReceiverStart;
    CleanReceiveCompletes(cs, 0);
    assert cs[..|cs|] == cs;
  }
}

=== FILE: game.dfy ===
/**
 * The HuntCin board: a 3x3 grid of 1-indexed cells, the fixed start cell
 * (1,1), the four moves, and the one-axis clue the `hint` and `suggest`
 * commands give (vertical difference first).
 */
module Game {
  import opened Common

  const GridW: int := 3
  const GridH: int := 3

  datatype Pos = Pos(x: int, y: int)

  const StartPos: Pos := Pos(1, 1)

  predicate InGrid(p: Pos) {
    1 <= p.x <= GridW && 1 <= p.y <= GridH
  }

  /** What `random_treasure_position` guarantees of its draw: a cell of the grid other than the start. */
  predicate ValidTreasure(t: Pos) {
    InGrid(t) && t != StartPos
  }

  /** The unit step a direction name stands for; `None` for anything else. */
  function Delta(direction: string): (r: Option<(int, int)>)
    ensures r.Some? <==> IsDirection(direction)
    ensures r.Some? ==> (if r.value.0 == 0 then r.value.1 == 1 || r.value.1 == -1 else r.value.1 == 0 && (r.value.0 == 1 || r.value.0 == -1))
    ensures direction == "up" ==> r.Some? && r.value.0 == 0 && r.value.1 > 0
    ensures direction == "down" ==> r.Some? && r.value.0 == 0 && r.value.1 < 0
    ensures direction == "right" ==> r.Some? && r.value.0 > 0 && r.value.1 == 0
    ensures direction == "left" ==> r.Some? && r.value.0 < 0 && r.value.1 == 0
  {
    if direction == "up" then Some((0, 1))
    else if direction == "down" then Some((0, -1))
    else if direction == "left" then Some((-1, 0))
    else if direction == "right" then Some((1, 0))
    else None
  }

  predicate IsDirection(direction: string) {
    direction == "up" || direction == "down" || direction == "left" || direction == "right"
  }

  /** How a player's pending move is resolved (the result line of `validate_and_apply_move`). */
  datatype MoveOutcome =
    | NotOnline         // the player went offline before resolution
    | InvalidDirection  // the stored direction is not one of the four
    | OffGrid(stay: Pos)  // the target cell is outside the grid: the player stays
    | Moved(to: Pos)

  function Distance(p: Pos, q: Pos): nat {
    (if p.x <= q.x then q.x - p.x else p.x - q.x) + (if p.y <= q.y then q.y - p.y else p.y - q.y)
  }

  /**
   * `validate_and_apply_move` for an online player at `p`: an unknown
   * direction or a target off the grid leaves the player where it is;
   * otherwise the player moves one cell in that direction.
   */
  function MoveFrom(p: Pos, direction: string): (r: MoveOutcome)
    ensures r.InvalidDirection? <==> !IsDirection(direction)
    ensures r.OffGrid? ==> r.stay == p
    ensures r.Moved? ==> InGrid(r.to) && Distance(p, r.to) == 1
    ensures r.Moved? ==> r.to == Pos(p.x + Delta(direction).value.0, p.y + Delta(direction).value.1)
    ensures IsDirection(direction) ==> (r.Moved? <==> InGrid(Pos(p.x + Delta(direction).value.0, p.y + Delta(direction).value.1)))
    ensures !r.NotOnline?
  {
    match Delta(direction)
    case None => InvalidDirection
    case Some((dx, dy)) =>
      var n := Pos(p.x + dx, p.y + dy);
      if !(1 <= n.x <= GridW && 1 <= n.y <= GridH) then OffGrid(p) else Moved(n)
  }

  /** The position after an outcome. */
  function PosAfter(p: Pos, r: MoveOutcome): Pos {
    if r.Moved? then r.to else p
  }

  /** Resolution never takes a player off the grid. */
  lemma MoveStaysInGrid(p: Pos, direction: string)
    requires InGrid(p)
    ensures InGrid(PosAfter(p, MoveFrom(p, direction)))
  {
  }

  /** The wall bounce at the start cell: `left` and `down` from (1,1) leave the player there. */
  lemma WallBounceAtStart()
    ensures MoveFrom(StartPos, "left") == OffGrid(StartPos)
    ensures MoveFrom(StartPos, "down") == OffGrid(StartPos)
    ensures MoveFrom(StartPos, "right") == Moved(Pos(2, 1))
  {
  }

  /** Where the treasure lies relative to a player, one axis only. */
  datatype Clue = TreasureUp | TreasureDown | TreasureRight | TreasureLeft | OnTreasure

  /** The clue of `hint` and `suggest`: up or down when the rows differ, else right or left, else on it. */
  function ClueFor(p: Pos, t: Pos): (c: Clue)
    ensures c == OnTreasure <==> p == t
    ensures (c == TreasureUp || c == TreasureDown) <==> p.y != t.y
  {
    if t.y > p.y then TreasureUp
    else if t.y < p.y then TreasureDown
    else if t.x > p.x then TreasureRight
    else if t.x < p.x then TreasureLeft
    else OnTreasure
  }

  /** The move a clue recommends (the text after `move ` in a suggestion). */
  function ClueDirection(c: Clue): string {
    match c
    case TreasureUp => "up"
    case TreasureDown => "down"
    case TreasureRight => "right"
    case TreasureLeft => "left"
    case OnTreasure => ""
  }

  /**
   * Following the clue always works: from any cell of the grid, moving in
   * the recommended direction stays on the grid and brings the player one
   * step closer to a treasure that is elsewhere on the grid.
   */
  lemma ClueLeadsToTreasure(p: Pos, t: Pos)
    requires InGrid(p) && InGrid(t) && p != t
    ensures var r := MoveFrom(p, ClueDirection(ClueFor(p, t)));
      r.Moved? && Distance(r.to, t) + 1 == Distance(p, t)
  {
  }
}

=== FILE: lock_order.dfy ===
/**
 * The lock discipline of HuntCin `server.py`. The table lock
 * `clients_lock` is a plain `threading.Lock`, which is not re-entrant, and
 * `reliable_send` takes it: first through `ensure_client_state`, then once
 * per attempt and once more when the ACK has arrived. Several branches of
 * `handle_application_message` call `reliable_send` from inside a
 * `with clients_lock:` block, so the handler thread waits forever on a lock
 * it holds itself, and every other thread that needs the table (the
 * receive loop among them) waits behind it.
 *
 * A handler's run is the sequence of lock operations it performs; `Run`
 * executes it for one thread, with a lock that is already held counting as
 * a wait that never ends. `AsWritten` is the order in the source;
 * `Corrected` releases the table lock before replying, which is the order
 * `Session.Dispatch` assumes.
 */
module LockOrder {
  import opened Session

  datatype Lock = ClientsLock | RoundLock

  datatype Op = Acquire(lock: Lock) | Release(lock: Lock)

  /** How a thread's run of lock operations ends. */
  datatype Outcome =
    | Completed(held: set<Lock>)            // ran to the end holding these locks
    | Blocked(waitsFor: Lock, held: set<Lock>)  // waits forever for a lock while holding these

  /**
   * One thread performing `ops` starting with `held`: acquiring a lock it
   * already holds never returns, since no other thread releases a lock it
   * did not take.
   */
  function Run(held: set<Lock>, ops: seq<Op>): (r: Outcome)
    ensures r.Blocked? ==> r.waitsFor in r.held && exists i :: 0 <= i < |ops| && ops[i] == Acquire(r.waitsFor)
    ensures (forall i :: 0 <= i < |ops| ==> !ops[i].Acquire?) ==> r.Completed?
    decreases |ops|
  {
    if |ops| == 0 then Completed(held)
    else
      var r := match ops[0]
        case Acquire(l) => if l in held then Blocked(l, held) else Run(held + {l}, ops[1..])
        case Release(l) => Run(held - {l}, ops[1..]);
      assert r.Blocked? && !(ops[0] == Acquire(r.waitsFor)) ==>
        exists i :: 1 <= i < |ops| && ops[i] == Acquire(r.waitsFor);
      r
  }

  /** Running two pieces one after the other is running the first, then the second from where it ended. */
  lemma {:induction false} RunAppend(held: set<Lock>, a: seq<Op>, b: seq<Op>)
    ensures Run(held, a + b) == (if Run(held, a).Completed? then Run(Run(held, a).held, b) else Run(held, a))
    decreases |a|
  {
    if |a| == 0 {
      assert a + b == b;
    } else {
      assert (a + b)[0] == a[0] && (a + b)[1..] == a[1..] + b;
      match a[0]
      case Acquire(l) =>
        if l !in held {
          RunAppend(held + {l}, a[1..], b);
        }
      case Release(l) =>
        RunAppend(held - {l}, a[1..], b);
    }
  }

  /** A `with lock:` block with nothing inside that takes a lock. */
  function With(l: Lock): seq<Op> {
    [Acquire(l), Release(l)]
  }

  /**
   * The lock operations of a `reliable_send` that succeeds on its n-th
   * attempt: `ensure_client_state`, one block per attempt to read the bit
   * and clear the event, and the block that flips the bit.
   */
  function SendOps(attempts: nat): (ops: seq<Op>)
    ensures |ops| == 2 * attempts + 4
    ensures forall i :: 0 <= i < |ops| ==> ops[i].lock == ClientsLock
    decreases attempts
  {
    if attempts == 0 then With(ClientsLock) + With(ClientsLock)
    else With(ClientsLock) + SendOps(attempts - 1)
  }

  /** A reply is a wait forever exactly when the table lock is already held, and leaves the lock set as it was otherwise. */
  lemma {:induction false} SendOpsRun(held: set<Lock>, attempts: nat)
    ensures Run(held, SendOps(attempts)) ==
      (if ClientsLock in held then Blocked(ClientsLock, held) else Completed(held))
    decreases attempts
  {
    if ClientsLock !in held {
      assert held + {ClientsLock} - {ClientsLock} == held;
    }
    if attempts == 0 {
      RunAppend(held, With(ClientsLock), With(ClientsLock));
    } else {
      RunAppend(held, With(ClientsLock), SendOps(attempts - 1));
      SendOpsRun(held, attempts - 1);
    }
  }

  /** The replies `handle_application_message` sends from inside `with clients_lock:`. */
  predicate SentUnderTableLock(r: Reply) {
    r.NameInUse? || r.MoveNeedsOnline? || r.HelpNeedsOnline? || r.HelpAlreadyUsed?
  }

  /** Where in the handler a reply is sent, relative to its lock blocks. */
  datatype Place =
    | InsideTable  // inside the `with clients_lock:` block that checked
    | InsideRound  // inside `with round_lock:` (`sem jogo`)
    | AfterRound   // after the table block and the round block (a clue)
    | AfterTable   // after the table block that made the update
    | NoBlock      // without any block of the handler's own (unknown command)

  /**
   * The handler's lock operations up to and including a reply sent in
   * `attempts` attempts. Every path starts with `ensure_client_state`.
   */
  function PathOps(place: Place, attempts: nat): seq<Op> {
    var ensure := With(ClientsLock);
    var send := SendOps(attempts);
    match place
    case InsideTable => ensure + [Acquire(ClientsLock)] + send + [Release(ClientsLock)]
    case InsideRound => ensure + With(ClientsLock) + [Acquire(RoundLock)] + send + [Release(RoundLock)]
    case AfterRound => ensure + With(ClientsLock) + With(RoundLock) + send
    case AfterTable => ensure + With(ClientsLock) + send
    case NoBlock => ensure + send
  }

  /** Where the source sends each reply. */
  function PlaceAsWritten(r: Reply): (p: Place)
    ensures p == InsideTable <==> SentUnderTableLock(r)
  {
    if SentUnderTableLock(r) then InsideTable
    else if r.NoGame? then InsideRound
    else if r.Help? then AfterRound
    else if r.InvalidCommand? then NoBlock
    else AfterTable
  }

  /** The evident intent: the rejections too are sent once the table block has ended. */
  function PlaceCorrected(r: Reply): (p: Place)
    ensures p != InsideTable
    ensures p != PlaceAsWritten(r) ==> SentUnderTableLock(r)
  {
    if SentUnderTableLock(r) then AfterTable else PlaceAsWritten(r)
  }

  function AsWritten(r: Reply, attempts: nat): seq<Op> {
    PathOps(PlaceAsWritten(r), attempts)
  }

  function Corrected(r: Reply, attempts: nat): seq<Op> {
    PathOps(PlaceCorrected(r), attempts)
  }

  lemma WithRun(held: set<Lock>, l: Lock)
    requires l !in held
    ensures Run(held, With(l)) == Completed(held)
  {
    assert held + {l} - {l} == held;
  }

  lemma InsideTableHangs(attempts: nat)
    ensures Run({}, PathOps(InsideTable, attempts)) == Blocked(ClientsLock, {ClientsLock})
  {
    var ensure := With(ClientsLock);
    var send := SendOps(attempts);
    WithRun({}, ClientsLock);
    SendOpsRun({ClientsLock}, attempts);
    RunAppend({}, ensure, [Acquire(ClientsLock)]);
    RunAppend({}, ensure + [Acquire(ClientsLock)], send);
    RunAppend({}, ensure + [Acquire(ClientsLock)] + send, [Release(ClientsLock)]);
  }

  /** A `with` block around a body that ends holding what it started with. */
  lemma WithAround(held: set<Lock>, l: Lock, body: seq<Op>)
    requires l !in held && Run(held + {l}, body) == Completed(held + {l})
    ensures Run(held, [Acquire(l)] + body + [Release(l)]) == Completed(held)
  {
    RunAppend(held, [Acquire(l)], body);
    RunAppend(held, [Acquire(l)] + body, [Release(l)]);
    assert held + {l} - {l} == held;
  }

  lemma InsideRoundCompletes(attempts: nat)
    ensures Run({}, PathOps(InsideRound, attempts)) == Completed({})
  {
    var pre := With(ClientsLock) + With(ClientsLock);
    var send := SendOps(attempts);
    WithRun({}, ClientsLock);
    RunAppend({}, With(ClientsLock), With(ClientsLock));
    SendOpsRun({RoundLock}, attempts);
    assert {} + {RoundLock} == {RoundLock};
    WithAround({}, RoundLock, send);
    assert pre + [Acquire(RoundLock)] + send + [Release(RoundLock)] == pre + ([Acquire(RoundLock)] + send + [Release(RoundLock)]);
    RunAppend({}, pre, [Acquire(RoundLock)] + send + [Release(RoundLock)]);
  }

  lemma AfterRoundCompletes(attempts: nat)
    ensures Run({}, PathOps(AfterRound, attempts)) == Completed({})
  {
    var pre := With(ClientsLock) + With(ClientsLock);
    WithRun({}, ClientsLock);
    WithRun({}, RoundLock);
    RunAppend({}, With(ClientsLock), With(ClientsLock));
    SendOpsRun({}, attempts);
    RunAppend({}, pre, With(RoundLock));
    RunAppend({}, pre + With(RoundLock), SendOps(attempts));
  }

  lemma AfterTableCompletes(attempts: nat)
    ensures Run({}, PathOps(AfterTable, attempts)) == Completed({})
  {
    WithRun({}, ClientsLock);
    RunAppend({}, With(ClientsLock), With(ClientsLock));
    SendOpsRun({}, attempts);
    RunAppend({}, With(ClientsLock) + With(ClientsLock), SendOps(attempts));
  }

  lemma NoBlockCompletes(attempts: nat)
    ensures Run({}, PathOps(NoBlock, attempts)) == Completed({})
  {
    WithRun({}, ClientsLock);
    SendOpsRun({}, attempts);
    RunAppend({}, With(ClientsLock), SendOps(attempts));
  }

  /** Every place but the inside of the table block lets the handler finish with no lock held. */
  lemma OutsideTableCompletes(place: Place, attempts: nat)
    requires place != InsideTable
    ensures Run({}, PathOps(place, attempts)) == Completed({})
  {
    match place
    case InsideRound => InsideRoundCompletes(attempts);
    case AfterRound => AfterRoundCompletes(attempts);
    case AfterTable => AfterTableCompletes(attempts);
    case NoBlock => NoBlockCompletes(attempts);
  }

  /**
   * As written, the handler hangs exactly on the four replies it sends
   * from inside the table block, however many attempts the reply would
   * have needed, and it hangs holding the table lock; every other path
   * completes with no lock held.
   */
  lemma AsWrittenHangs(r: Reply, attempts: nat)
    ensures var o := Run({}, AsWritten(r, attempts));
      (o.Blocked? <==> SentUnderTableLock(r)) &&
      (o.Blocked? ==> o == Blocked(ClientsLock, {ClientsLock})) &&
      (o.Completed? ==> o.held == {})
  {
    if SentUnderTableLock(r) {
      InsideTableHangs(attempts);
    } else {
      OutsideTableCompletes(PlaceAsWritten(r), attempts);
    }
  }

  /** With the rejections sent after the table block, every handler path completes and releases every lock. */
  lemma CorrectedCompletes(r: Reply, attempts: nat)
    ensures Run({}, Corrected(r, attempts)) == Completed({})
  {
    OutsideTableCompletes(PlaceCorrected(r), attempts);
  }

  /**
   * Once a handler hangs holding the table lock, the receive loop hangs at
   * its next datagram: `ensure_client_state` is the first thing it does.
   */
  lemma HungHandlerStopsReceiver(r: Reply, attempts: nat)
    requires SentUnderTableLock(r)
    ensures Run(Run({}, AsWritten(r, attempts)).held, With(ClientsLock)).Blocked?
  {
    AsWrittenHangs(r, attempts);
  }
}

=== FILE: session.dfy ===
/**
 * The HuntCin server's session table and command handling.
 *
 * The table maps each peer address to its record: name, the per-peer
 * alternating-bit state, position, online flag, the two one-shot help
 * flags and the move stored for the current round. Scores are kept per
 * name and outlive logouts. Every handler is one atomic update of the
 * table that also yields the replies for the requesting peer and the
 * broadcasts, each with the set of peers that receives it.
 */
module Session {
  import opened Common
  import opened Text
  import opened Channel
  import opened Game

  datatype Addr = Addr(host: string, port: nat)

  datatype Client = Client(
    name: Option<string>,
    chan: Endpoint,               // expected_seq_recv, next_seq_send and the two ACK events
    pos: Pos,
    online: bool,
    hintUsed: bool,
    suggestUsed: bool,
    lastCommand: Option<string>)  // the direction of this round's `move`, if any

  /** The record `ensure_client_state` creates for an address it has not seen. */
  const NewClient: Client := Client(None, Fresh, StartPos, false, false, false, None)

  datatype Server = Server(
    clients: map<Addr, Client>,
    scores: map<string, nat>,
    treasure: Option<Pos>,  // `current_treasure`; `None` before the first round
    round: nat)

  const Initial: Server := Server(map[], map[], None, 0)

  /** The two help commands, which share their logic and differ in flag and wording. */
  datatype HelpKind = HintHelp | SuggestHelp

  /** A reply to the peer that sent the command. */
  datatype Reply =
    | NameInUse(name: string)
    | NowOnline
    | LoggedOut
    | MoveNeedsOnline
    | MoveReceived(direction: string)
    | HelpNeedsOnline(kind: HelpKind)
    | HelpAlreadyUsed(kind: HelpKind)
    | NoGame
    | Help(kind: HelpKind, clue: Clue)
    | InvalidCommand

  /** A broadcast to every peer online when it is issued. */
  datatype Notice =
    | Joined(player: string, port: nat)
    | Left(who: Option<string>, port: nat)
    | RoundStarted(round: nat)
    | Status(positions: map<Addr, Pos>)
    | Found(winners: set<Addr>, at: Pos)
    | Scoreboard(scores: map<string, nat>)
    | Eliminated(players: set<Addr>)
    | Results(outcomes: map<Addr, MoveOutcome>)

  datatype Out = ToPeer(peer: Addr, reply: Reply) | ToAll(peers: set<Addr>, notice: Notice)

  datatype Handled = Handled(server: Server, out: seq<Out>)

  /** Every error reply starts with this marker. */
  const ErrorMark: string := "ERRO: "

  /** The exact text the server sends for a reply. */
  function ReplyText(r: Reply): string {
    match r
    case NameInUse(n) => ErrorMark + "nome '" + n + "' já está em uso."
    case NowOnline => "você está online!"
    case LoggedOut => "logout efetuado."
    case MoveNeedsOnline => ErrorMark + "você precisa estar online para mover."
    case MoveReceived(d) => "Comando recebido: move " + d
    case HelpNeedsOnline(k) =>
      ErrorMark + (if k == HintHelp then "precisa estar online para pedir hint."
                   else "precisa estar online para pedir suggestion.")
    case HelpAlreadyUsed(k) =>
      ErrorMark + (if k == HintHelp then "você já usou sua dica nesta partida."
                   else "você já usou sua sugestão nesta partida.")
    case NoGame => ErrorMark + "sem jogo em andamento."
    case Help(HintHelp, c) =>
      "O tesouro está " +
      (match c
       case TreasureUp => "mais acima."
       case TreasureDown => "mais abaixo."
       case TreasureRight => "mais à direita."
       case TreasureLeft => "mais à esquerda."
       case OnTreasure => "exatamente na sua posição!")
    case Help(SuggestHelp, c) =>
      "Sugestão: " + (if c == OnTreasure then "Você já está no tesouro!" else "move " + ClueDirection(c))
    case InvalidCommand => ErrorMark + "comando inválido ou formato incorreto."
  }

  /** The text of the notices whose wording does not depend on table iteration order. */
  function NoticeText(n: Notice): Option<string> {
    match n
    case Joined(p, port) => Some("[Servidor] " + p + ":" + Decimal(port) + " entrou no jogo.")
    case Left(p, port) => Some("[Servidor] " + (if p.Some? then p.value else "None") + ":" + Decimal(port) + " saiu do jogo.")
    case RoundStarted(k) => Some("[Servidor] Início da rodada " + Decimal(k) + "! Envie seu movimento em 10.0 segundos.")
    case _ => None
  }

  /** The peers a broadcast issued now reaches. */
  function OnlineAddrs(s: Server): (r: set<Addr>)
    ensures forall a :: a in r <==> a in s.clients && s.clients[a].online
  {
    set a | a in s.clients && s.clients[a].online
  }

  /** `ensure_client_state`: a record for `a` exists afterwards; an existing one is left alone. */
  function Ensure(s: Server, a: Addr): (r: Server)
    ensures r.clients.Keys == s.clients.Keys + {a}
    ensures forall b :: b in s.clients ==> r.clients[b] == s.clients[b]
    ensures a !in s.clients ==> r.clients[a] == NewClient
    ensures r.scores == s.scores && r.treasure == s.treasure && r.round == s.round
  {
    if a in s.clients then s else s.(clients := s.clients[a := NewClient])
  }

  /** Ensuring twice is ensuring once. */
  lemma EnsureIdempotent(s: Server, a: Addr)
    ensures Ensure(Ensure(s, a), a) == Ensure(s, a)
  {
  }

  // ---------------------------------------------------------------------
  // Commands
  // ---------------------------------------------------------------------

  /** What `handle_application_message` makes of a delivered text. */
  datatype Command =
    | Blank
    | Login(name: string)
    | Logout
    | Move(direction: string)
    | Ask(kind: HelpKind)
    | Unknown

  /** The command keywords the handler compares the lower-cased first word with. */
  datatype Keyword = LoginWord | LogoutWord | MoveWord | HintWord | SuggestWord | OtherWord

  function KeywordOf(w: string): (k: Keyword)
    ensures k == LoginWord <==> w == "login"
    ensures k == LogoutWord <==> w == "logout"
    ensures k == MoveWord <==> w == "move"
    ensures k == HintWord <==> w == "hint"
    ensures k == SuggestWord <==> w == "suggest"
  {
    if w == "login" then LoginWord
    else if w == "logout" then LogoutWord
    else if w == "move" then MoveWord
    else if w == "hint" then HintWord
    else if w == "suggest" then SuggestWord
    else OtherWord
  }

  /** The keyword the lower-cased first word is; `OtherWord` for an empty message. */
  function HeadWord(parts: seq<string>): Keyword {
    if |parts| == 0 then OtherWord else KeywordOf(Lower(parts[0]))
  }

  /**
   * `" ".join(parts[1:]).strip()`: for a list of words, the words after
   * `login` joined by single blanks, which `strip()` leaves alone.
   */
  function LoginName(parts: seq<string>): (n: string)
    requires |parts| >= 2
    ensures (forall i :: 0 <= i < |parts| ==> IsWord(parts[i])) ==> n == Join(parts[1..]) && |n| > 0
  {
    var rest := parts[1..];
    if forall i :: 0 <= i < |parts| ==> IsWord(parts[i]) then
      assert forall i :: 0 <= i < |rest| ==> rest[i] == parts[i + 1];
      JoinedWordsAreStripped(rest);
      Strip(Join(rest))
    else
      Strip(Join(rest))
  }

  /**
   * The dispatch on the words of a message: the first word, lower-cased,
   * picks the command; `login` needs a name, `move` exactly one argument,
   * whose lower-cased form is kept whatever it is.
   */
  function CommandOf(parts: seq<string>): (c: Command)
    requires forall i :: 0 <= i < |parts| ==> IsWord(parts[i])
    ensures c.Blank? <==> parts == []
    ensures c.Login? ==> |parts| >= 2 && c.name == Join(parts[1..]) && |c.name| > 0
    ensures c.Move? ==> |parts| == 2 && c.direction == Lower(parts[1])
    ensures |parts| >= 2 && Lower(parts[0]) == "login" ==> c == Login(Join(parts[1..]))
    ensures |parts| == 2 && Lower(parts[0]) == "move" ==> c == Move(Lower(parts[1]))
    ensures |parts| > 0 && Lower(parts[0]) == "logout" ==> c == Logout
    ensures |parts| > 0 && Lower(parts[0]) == "hint" ==> c == Ask(HintHelp)
    ensures |parts| > 0 && Lower(parts[0]) == "suggest" ==> c == Ask(SuggestHelp)
  {
    if |parts| == 0 then Blank
    else
      match HeadWord(parts)
      case LoginWord => if |parts| >= 2 then Login(LoginName(parts)) else Unknown
      case LogoutWord => Logout
      case MoveWord => if |parts| == 2 then Move(Lower(parts[1])) else Unknown
      case HintWord => Ask(HintHelp)
      case SuggestWord => Ask(SuggestHelp)
      case OtherWord => Unknown
  }

  /**
   * Which command a non-empty list of words is, by its lower-cased first
   * word: `login` with at least one more word, `move` with exactly one
   * more (whatever it is), `logout`, `hint`, `suggest` whatever follows,
   * and `Unknown` for everything else, a bare `login` or a `move` with the
   * wrong number of arguments included.
   */
  lemma CommandCases(parts: seq<string>)
    requires |parts| > 0 && forall i :: 0 <= i < |parts| ==> IsWord(parts[i])
    ensures var c := CommandOf(parts); var k := KeywordOf(Lower(parts[0]));
      && (c.Login? <==> k == LoginWord && |parts| >= 2)
      && (c.Move? <==> k == MoveWord && |parts| == 2)
      && (c == Logout <==> k == LogoutWord)
      && (c == Ask(HintHelp) <==> k == HintWord)
      && (c == Ask(SuggestHelp) <==> k == SuggestWord)
      && (c.Unknown? <==> k == OtherWord || (k == LoginWord && |parts| < 2) || (k == MoveWord && |parts| != 2))
  {
  }

  /** `msg.strip().split()`, then the dispatch. */
  function ParseCommand(msg: string): Command {
    CommandOf(Words(Strip(msg)))
  }

  lemma ParseWords(msg: string, ws: seq<string>)
    requires Words(Strip(msg)) == ws
    ensures ParseCommand(msg) == CommandOf(ws)
  {
  }

  /** A message made of words joined by single blanks is dispatched on exactly those words. */
  lemma ParseJoin(ws: seq<string>)
    requires |ws| > 0 && forall i :: 0 <= i < |ws| ==> IsWord(ws[i])
    ensures ParseCommand(Join(ws)) == CommandOf(ws)
  {
    SplitJoin(ws);
    ParseWords(Join(ws), ws);
  }

  /** The truthy names of the online players (the `nomes` list of `login`). */
  predicate NameTaken(s: Server, name: string) {
    name != "" && exists b :: b in s.clients && s.clients[b].online && s.clients[b].name == Some(name)
  }

  /** `s2` differs from `s` at most in the record of `a` and in the scores. */
  predicate OnlyTouches(s: Server, s2: Server, a: Addr) {
    && s2.clients.Keys == s.clients.Keys
    && (forall b :: b in s.clients && b != a ==> s2.clients[b] == s.clients[b])
    && s2.treasure == s.treasure && s2.round == s.round
  }

  /** `login <name>`: refused while an online player holds the name, else a fresh start on (1,1). */
  function DoLogin(s: Server, a: Addr, name: string): (r: Handled)
    requires a in s.clients
    ensures OnlyTouches(s, r.server, a)
    ensures NameTaken(s, name) ==> r == Handled(s, [ToPeer(a, NameInUse(name))])
    ensures !NameTaken(s, name) ==>
      var c := r.server.clients[a];
      && c.online && c.name == Some(name) && c.pos == StartPos && c.lastCommand.None?
      && !c.hintUsed && !c.suggestUsed && c.chan == s.clients[a].chan
      && r.server.scores.Keys == s.scores.Keys + {name}
      && (forall n :: n in s.scores ==> r.server.scores[n] == s.scores[n])
      && (name !in s.scores ==> r.server.scores[name] == 0)
      && r.out == [ToPeer(a, NowOnline), ToAll(OnlineAddrs(r.server), Joined(name, a.port))]
      && a in r.out[1].peers
  {
    if NameTaken(s, name) then Handled(s, [ToPeer(a, NameInUse(name))])
    else
      var c := s.clients[a].(name := Some(name), online := true, pos := StartPos,
                             hintUsed := false, suggestUsed := false, lastCommand := None);
      var scores := if name in s.scores then s.scores else s.scores[name := 0];
      var s' := s.(clients := s.clients[a := c], scores := scores);
      Handled(s', [ToPeer(a, NowOnline), ToAll(OnlineAddrs(s'), Joined(name, a.port))])
  }

  /** `logout`: taken whether or not the peer is online; the peer itself is not told of its departure. */
  function DoLogout(s: Server, a: Addr): (r: Handled)
    requires a in s.clients
    ensures OnlyTouches(s, r.server, a)
    ensures var c := r.server.clients[a];
      !c.online && c.lastCommand.None? && c.name == s.clients[a].name && c.pos == s.clients[a].pos
      && c.hintUsed == s.clients[a].hintUsed && c.suggestUsed == s.clients[a].suggestUsed
      && c.chan == s.clients[a].chan
    ensures r.server.scores == s.scores
    ensures r.out == [ToPeer(a, LoggedOut), ToAll(OnlineAddrs(r.server), Left(s.clients[a].name, a.port))]
    ensures a !in r.out[1].peers
  {
    var c := s.clients[a].(online := false, lastCommand := None);
    var s' := s.(clients := s.clients[a := c]);
    Handled(s', [ToPeer(a, LoggedOut), ToAll(OnlineAddrs(s'), Left(s.clients[a].name, a.port))])
  }

  /** `move <d>`: an online player's stored move is replaced by `d`, unchecked; the position waits for the round's end. */
  function DoMove(s: Server, a: Addr, direction: string): (r: Handled)
    requires a in s.clients
    ensures OnlyTouches(s, r.server, a) && r.server.scores == s.scores
    ensures !s.clients[a].online ==> r == Handled(s, [ToPeer(a, MoveNeedsOnline)])
    ensures s.clients[a].online ==>
      && r.server == s.(clients := s.clients[a := s.clients[a].(lastCommand := Some(direction))])
      && r.out == [ToPeer(a, MoveReceived(direction))]
  {
    if !s.clients[a].online then Handled(s, [ToPeer(a, MoveNeedsOnline)])
    else
      Handled(s.(clients := s.clients[a := s.clients[a].(lastCommand := Some(direction))]),
              [ToPeer(a, MoveReceived(direction))])
  }

  function Used(c: Client, k: HelpKind): bool {
    if k == HintHelp then c.hintUsed else c.suggestUsed
  }

  function MarkUsed(c: Client, k: HelpKind): (d: Client)
    ensures Used(d, k) && Used(d, if k == HintHelp then SuggestHelp else HintHelp) == Used(c, if k == HintHelp then SuggestHelp else HintHelp)
    ensures d.(hintUsed := c.hintUsed, suggestUsed := c.suggestUsed) == c
  {
    if k == HintHelp then c.(hintUsed := true) else c.(suggestUsed := true)
  }

  /**
   * `hint` / `suggest`: refused when offline or already used; otherwise the
   * flag is spent first, and only then is a missing treasure reported.
   */
  function DoHelp(s: Server, a: Addr, k: HelpKind): (r: Handled)
    requires a in s.clients
    ensures OnlyTouches(s, r.server, a) && r.server.scores == s.scores
    ensures !s.clients[a].online || Used(s.clients[a], k) ==> r.server == s
    ensures |r.out| == 1 && r.out[0].ToPeer? && r.out[0].peer == a
    ensures !s.clients[a].online ==> r.out[0].reply == HelpNeedsOnline(k)
    ensures s.clients[a].online && Used(s.clients[a], k) ==> r.out[0].reply == HelpAlreadyUsed(k)
    ensures s.clients[a].online && !Used(s.clients[a], k) ==>
      && r.server == s.(clients := s.clients[a := MarkUsed(s.clients[a], k)])
      && r.out[0].reply == (if s.treasure.None? then NoGame else Help(k, ClueFor(s.clients[a].pos, s.treasure.value)))
  {
    var c := s.clients[a];
    if !c.online then Handled(s, [ToPeer(a, HelpNeedsOnline(k))])
    else if Used(c, k) then Handled(s, [ToPeer(a, HelpAlreadyUsed(k))])
    else
      var s' := s.(clients := s.clients[a := MarkUsed(c, k)]);
      match s.treasure
      case None => Handled(s', [ToPeer(a, NoGame)])
      case Some(t) => Handled(s', [ToPeer(a, Help(k, ClueFor(c.pos, t)))])
  }

  /** Carrying out a parsed command from `a`, whose record exists. */
  function Dispatch(s: Server, a: Addr, cmd: Command): (r: Handled)
    requires a in s.clients
    ensures OnlyTouches(s, r.server, a)
    ensures r.server.clients[a].chan == s.clients[a].chan
    ensures !cmd.Login? ==> r.server.clients[a].pos == s.clients[a].pos && r.server.scores == s.scores
    ensures forall i :: 0 <= i < |r.out| && r.out[i].ToPeer? ==> r.out[i].peer == a
    ensures cmd.Blank? <==> r.out == []
  {
    match cmd
    case Blank => Handled(s, [])
    case Login(n) => DoLogin(s, a, n)
    case Logout => DoLogout(s, a)
    case Move(d) => DoMove(s, a, d)
    case Ask(k) => DoHelp(s, a, k)
    case Unknown => Handled(s, [ToPeer(a, InvalidCommand)])
  }

  /**
   * `handle_application_message` for a text delivered from `a`. Only the
   * sender's record changes; every reply goes to the sender.
   */
  function Handle(s: Server, a: Addr, msg: string): (r: Handled)
    ensures OnlyTouches(Ensure(s, a), r.server, a)
    ensures r.server.clients[a].chan == Ensure(s, a).clients[a].chan
    ensures !ParseCommand(msg).Login? ==> r.server.clients[a].pos == Ensure(s, a).clients[a].pos && r.server.scores == s.scores
    ensures forall i :: 0 <= i < |r.out| && r.out[i].ToPeer? ==> r.out[i].peer == a
    ensures ParseCommand(msg).Blank? <==> r.out == []
  {
    Dispatch(Ensure(s, a), a, ParseCommand(msg))
  }

  // ---------------------------------------------------------------------
  // Receiving
  // ---------------------------------------------------------------------

  datatype Received = Received(server: Server, acks: seq<string>, out: seq<Out>)

  /**
   * `receiver_thread` for one datagram from `a`: the record is ensured,
   * the peer's alternating-bit receiver runs, and a delivered text is
   * handled as a command.
   */
  function Receive(s: Server, a: Addr, p: string): (r: Received)
    ensures a in r.server.clients
    ensures var step := ReceiveHunt(Ensure(s, a).clients[a].chan, p);
      && r.acks == step.sent
      && r.server.clients[a].chan == step.ep
      && (step.delivered.None? ==> r.out == [] && r.server == WithChan(Ensure(s, a), a, step.ep))
    ensures var step := ReceiveHunt(Ensure(s, a).clients[a].chan, p);
      step.delivered.Some? ==>
        var h := Handle(WithChan(Ensure(s, a), a, step.ep), a, step.delivered.value);
        r.server == h.server && r.out == h.out
  {
    var s0 := Ensure(s, a);
    var step := ReceiveHunt(s0.clients[a].chan, p);
    var s1 := WithChan(s0, a, step.ep);
    match step.delivered
    case None => Received(s1, step.sent, [])
    case Some(msg) =>
      var h := Handle(s1, a, msg);
      Received(h.server, step.sent, h.out)
  }

  /** The table with the alternating-bit state of `a` replaced. */
  function WithChan(s: Server, a: Addr, e: Endpoint): (r: Server)
    requires a in s.clients
    ensures OnlyTouches(s, r, a) && r.scores == s.scores
    ensures r.clients[a] == s.clients[a].(chan := e)
  {
    s.(clients := s.clients[a := s.clients[a].(chan := e)])
  }

  /**
   * A retransmitted command is acknowledged but never handled twice: once a
   * datagram has been delivered, the same datagram again only re-ACKs, so
   * a repeated `login` is not refused as a name already in use.
   */
  lemma RetransmissionHandledOnce(s: Server, a: Addr, p: string)
    requires ReceiveHunt(Ensure(s, a).clients[a].chan, p).delivered.Some?
    ensures var r := Receive(s, a, p);
      var again := Receive(r.server, a, p);
      again.out == [] && again.acks == r.acks
      && again.server == r.server
  {
    var r := Receive(s, a, p);
    var e := Ensure(s, a).clients[a].chan;
    var e1 := r.server.clients[a].chan;
    var step := ReceiveHunt(e1, p);
    assert step.delivered.None? && step.sent == r.acks;
    assert step.ep == e1 by {
      assert step.ep.Acked(0) == e1.Acked(0) && step.ep.Acked(1) == e1.Acked(1);
    }
    UndeliveredKeepsTable(r.server, a, p);
  }

  /** A datagram that delivers nothing and leaves the peer's bits alone changes nothing in the table. */
  lemma UndeliveredKeepsTable(s: Server, a: Addr, p: string)
    requires a in s.clients
    requires var step := ReceiveHunt(s.clients[a].chan, p); step.delivered.None? && step.ep == s.clients[a].chan
    ensures Receive(s, a, p).server == s && Receive(s, a, p).out == []
  {
    assert Ensure(s, a) == s;
    assert s.clients[a := s.clients[a]] == s.clients;
  }

  // ---------------------------------------------------------------------
  // Rounds
  // ---------------------------------------------------------------------

  /**
   * The top of a round in `round_loop`: the counter advances, the drawn
   * treasure `t` is installed, every stored move is cleared and the start
   * is announced. The help flags are not reset.
   */
  function StartRound(s: Server, t: Pos): (r: Handled)
    requires ValidTreasure(t)
    ensures r.server.round == s.round + 1 && r.server.treasure == Some(t) && r.server.scores == s.scores
    ensures r.server.clients.Keys == s.clients.Keys
    ensures forall a :: a in s.clients ==>
      r.server.clients[a] == s.clients[a].(lastCommand := None)
    ensures r.out == [ToAll(OnlineAddrs(s), RoundStarted(s.round + 1))]
  {
    var clients := map a | a in s.clients :: s.clients[a].(lastCommand := None);
    var s' := s.(clients := clients, treasure := Some(t), round := s.round + 1);
    assert OnlineAddrs(s') == OnlineAddrs(s);
    Handled(s', [ToAll(OnlineAddrs(s'), RoundStarted(s'.round))])
  }

  /** The online players who stored no move this round. */
  function Idle(s: Server): set<Addr> {
    set a | a in s.clients && s.clients[a].online && s.clients[a].lastCommand.None?
  }

  /** `validate_and_apply_move` for every online player with a stored move. */
  function Outcomes(s: Server): map<Addr, MoveOutcome> {
    map a | a in s.clients && s.clients[a].online && s.clients[a].lastCommand.Some? ::
      MoveFrom(s.clients[a].pos, s.clients[a].lastCommand.value)
  }

  /**
   * The server with every stored move applied to its player's position:
   * nothing else about any player, and nothing outside the table, changes.
   */
  function ApplyMoves(s: Server): (s1: Server)
    ensures s1.clients.Keys == s.clients.Keys && s1 == s.(clients := s1.clients)
    ensures forall a :: a in s.clients ==>
      var c := s.clients[a];
      s1.clients[a] == c.(pos := if c.online && c.lastCommand.Some? then PosAfter(c.pos, MoveFrom(c.pos, c.lastCommand.value)) else c.pos)
    ensures OnlineAddrs(s1) == OnlineAddrs(s)
  {
    var outcomes := Outcomes(s);
    var clients := map a | a in s.clients ::
      if a in outcomes then s.clients[a].(pos := PosAfter(s.clients[a].pos, outcomes[a])) else s.clients[a];
    s.(clients := clients)
  }

  /** The online players standing on `t`. */
  function Winners(clients: map<Addr, Client>, t: Pos): set<Addr> {
    set a | a in clients && clients[a].online && clients[a].pos == t
  }

  function WinnerNames(clients: map<Addr, Client>, winners: set<Addr>): set<string> {
    set a | a in winners && a in clients && clients[a].name.Some? :: clients[a].name.value
  }

  /** How many of the winners play under `n`: the number of `+1`s `n` collects. */
  function WinsOf(clients: map<Addr, Client>, winners: set<Addr>, n: string): nat {
    |set a | a in winners && a in clients && clients[a].name == Some(n)|
  }

  function AddWins(scores: map<string, nat>, clients: map<Addr, Client>, winners: set<Addr>): map<string, nat> {
    map n | n in scores.Keys + WinnerNames(clients, winners) ::
      (if n in scores then scores[n] else 0) + WinsOf(clients, winners, n)
  }

  /**
   * The announcements of a round nobody won: the idle players when there
   * are any, then the move results when any move was stored.
   */
  function Verdicts(online: set<Addr>, idle: set<Addr>, outcomes: map<Addr, MoveOutcome>): (v: seq<Out>)
    ensures idle != {} <==> ToAll(online, Eliminated(idle)) in v
    ensures outcomes != map[] <==> ToAll(online, Results(outcomes)) in v
    ensures forall i :: 0 <= i < |v| ==> v[i].ToAll? && (v[i].notice.Eliminated? || v[i].notice.Results?)
  {
    (if idle != {} then [ToAll(online, Eliminated(idle))] else [])
      + (if outcomes != map[] then [ToAll(online, Results(outcomes))] else [])
  }

  /**
   * The end of a round in `round_loop`: stored moves are resolved, the
   * positions are broadcast, and then either the winners and the scoreboard
   * or the idle players and the move results are announced. Idle players are
   * only named; they stay online.
   */
  function ResolveRound(s: Server): (r: Handled)
    requires s.treasure.Some?
    ensures r.server.clients == ApplyMoves(s).clients
    ensures r.server.treasure == s.treasure && r.server.round == s.round
    ensures forall n :: n in s.scores ==> n in r.server.scores && r.server.scores[n] >= s.scores[n]
    ensures |r.out| >= 1 && r.out[0] == ToAll(OnlineAddrs(s), Status(map a | a in OnlineAddrs(s) :: r.server.clients[a].pos))
    ensures var w := Winners(r.server.clients, s.treasure.value);
      w != {} ==> r.out == [r.out[0], ToAll(OnlineAddrs(s), Found(w, s.treasure.value)), ToAll(OnlineAddrs(s), Scoreboard(r.server.scores))]
    ensures var w := Winners(r.server.clients, s.treasure.value);
      w == {} ==> r.server.scores == s.scores
    ensures var w := Winners(r.server.clients, s.treasure.value);
      (w == {} && Idle(s) != {}) <==> ToAll(OnlineAddrs(s), Eliminated(Idle(s))) in r.out
    ensures var w := Winners(r.server.clients, s.treasure.value);
      (w == {} && Outcomes(s) != map[]) <==> ToAll(OnlineAddrs(s), Results(Outcomes(s))) in r.out
    ensures var w := Winners(r.server.clients, s.treasure.value);
      w == {} ==> forall i :: 1 <= i < |r.out| ==> r.out[i].ToAll? && (r.out[i].notice.Eliminated? || r.out[i].notice.Results?)
  {
    var t := s.treasure.value;
    var s1 := ApplyMoves(s);
    var online := OnlineAddrs(s);
    var status := ToAll(online, Status(map a | a in online :: s1.clients[a].pos));
    var winners := Winners(s1.clients, t);
    if winners != {} then
      var scores := AddWins(s.scores, s1.clients, winners);
      Handled(s1.(scores := scores), [status, ToAll(online, Found(winners, t)), ToAll(online, Scoreboard(scores))])
    else
      var v := Verdicts(online, Idle(s), Outcomes(s));
      assert status !in v;
      Handled(s1, [status] + v)
  }

  // ---------------------------------------------------------------------
  // Invariant
  // ---------------------------------------------------------------------

  /** What every reachable table satisfies. */
  predicate ClientOk(c: Client, scores: map<string, nat>) {
    && InGrid(c.pos)
    && (c.online ==> c.name.Some? && c.name.value != "" && c.name.value in scores)
    && (!c.online ==> c.lastCommand.None?)
  }

  predicate WellFormed(s: Server) {
    && (forall a :: a in s.clients ==> ClientOk(s.clients[a], s.scores))
    && (forall a, b :: a in s.clients && b in s.clients && a != b && s.clients[a].online && s.clients[b].online
          ==> s.clients[a].name != s.clients[b].name)
    && (s.treasure.Some? ==> ValidTreasure(s.treasure.value))
  }

  lemma InitialWellFormed()
    ensures WellFormed(Initial)
  {
  }

  lemma EnsureKeepsWellFormed(s: Server, a: Addr)
    requires WellFormed(s)
    ensures WellFormed(Ensure(s, a))
  {
  }

  lemma LoginKeepsWellFormed(s: Server, a: Addr, name: string)
    requires WellFormed(s) && a in s.clients && name != ""
    ensures WellFormed(DoLogin(s, a, name).server)
  {
    var r := DoLogin(s, a, name).server;
    if !NameTaken(s, name) {
      forall b | b in r.clients && b != a && r.clients[b].online
        ensures r.clients[b].name != Some(name)
      {
        assert s.clients[b].online;
      }
    }
  }

  lemma DispatchKeepsWellFormed(s: Server, a: Addr, cmd: Command)
    requires WellFormed(s) && a in s.clients
    requires cmd.Login? ==> cmd.name != ""
    ensures WellFormed(Dispatch(s, a, cmd).server)
  {
    match cmd
    case Login(n) => LoginKeepsWellFormed(s, a, n);
    case Logout => LogoutKeepsWellFormed(s, a);
    case Move(d) => MoveKeepsWellFormed(s, a, d);
    case Ask(k) => HelpKeepsWellFormed(s, a, k);
    case _ =>
  }

  lemma LogoutKeepsWellFormed(s: Server, a: Addr)
    requires WellFormed(s) && a in s.clients
    ensures WellFormed(DoLogout(s, a).server)
  {
    var r := DoLogout(s, a).server;
    assert forall b :: b in r.clients && r.clients[b].online ==> b != a && s.clients[b].online;
  }

  lemma MoveKeepsWellFormed(s: Server, a: Addr, d: string)
    requires WellFormed(s) && a in s.clients
    ensures WellFormed(DoMove(s, a, d).server)
  {
  }

  lemma HelpKeepsWellFormed(s: Server, a: Addr, k: HelpKind)
    requires WellFormed(s) && a in s.clients
    ensures WellFormed(DoHelp(s, a, k).server)
  {
    var r := DoHelp(s, a, k).server;
    assert forall b :: b in r.clients ==> r.clients[b].online == s.clients[b].online;
  }

  lemma HandleKeepsWellFormed(s: Server, a: Addr, msg: string)
    requires WellFormed(s)
    ensures WellFormed(Handle(s, a, msg).server)
  {
    EnsureKeepsWellFormed(s, a);
    DispatchKeepsWellFormed(Ensure(s, a), a, ParseCommand(msg));
  }

  lemma ReceiveKeepsWellFormed(s: Server, a: Addr, p: string)
    requires WellFormed(s)
    ensures WellFormed(Receive(s, a, p).server)
  {
    EnsureKeepsWellFormed(s, a);
    var s0 := Ensure(s, a);
    var step := ReceiveHunt(s0.clients[a].chan, p);
    var s1 := s0.(clients := s0.clients[a := s0.clients[a].(chan := step.ep)]);
    assert WellFormed(s1);
    if step.delivered.Some? {
      HandleKeepsWellFormed(s1, a, step.delivered.value);
    }
  }

  lemma StartRoundKeepsWellFormed(s: Server, t: Pos)
    requires WellFormed(s) && ValidTreasure(t)
    ensures WellFormed(StartRound(s, t).server)
  {
  }

  lemma ResolveRoundKeepsWellFormed(s: Server)
    requires WellFormed(s) && s.treasure.Some?
    ensures WellFormed(ResolveRound(s).server)
  {
    var r := ResolveRound(s).server;
    forall a | a in s.clients
      ensures ClientOk(r.clients[a], r.scores)
    {
      var c := s.clients[a];
      if c.online && c.lastCommand.Some? {
        MoveStaysInGrid(c.pos, c.lastCommand.value);
      }
    }
  }

  /**
   * Adding the wins of online winners with distinct, already scored names
   * gives each of those names exactly one point and leaves every other
   * score alone.
   */
  lemma AddWinsOnce(scores: map<string, nat>, clients: map<Addr, Client>, w: set<Addr>)
    requires forall a :: a in w ==> a in clients && clients[a].name.Some? && clients[a].name.value in scores
    requires forall a, b :: a in w && b in w && a != b ==> clients[a].name != clients[b].name
    ensures var r := AddWins(scores, clients, w);
      && (forall a :: a in w ==> r[clients[a].name.value] == scores[clients[a].name.value] + 1)
      && (forall n :: n in scores && n !in WinnerNames(clients, w) ==> r[n] == scores[n])
      && r.Keys == scores.Keys
  {
    forall a | a in w
      ensures AddWins(scores, clients, w)[clients[a].name.value] == scores[clients[a].name.value] + 1
    {
      var n := clients[a].name.value;
      var named := set b | b in w && b in clients && clients[b].name == Some(n);
      assert named == {a} by {
        forall b | b in named ensures b == a {
        }
      }
      assert WinsOf(clients, w, n) == 1;
    }
    forall n | n in scores && n !in WinnerNames(clients, w)
      ensures AddWins(scores, clients, w)[n] == scores[n]
    {
      var named := set b | b in w && b in clients && clients[b].name == Some(n);
      assert named == {};
    }
    assert WinnerNames(clients, w) <= scores.Keys;
  }

  /** The players on the treasure each score exactly one point; no other score changes. */
  lemma WinnersScoreOnce(s: Server)
    requires WellFormed(s) && s.treasure.Some?
    ensures var r := ResolveRound(s).server;
      var w := Winners(r.clients, s.treasure.value);
      && (forall a :: a in w ==> r.scores[r.clients[a].name.value] == s.scores[r.clients[a].name.value] + 1)
      && (forall n :: n in s.scores && n !in WinnerNames(r.clients, w) ==> r.scores[n] == s.scores[n])
      && r.scores.Keys == s.scores.Keys
  {
    var r := ResolveRound(s).server;
    var w := Winners(r.clients, s.treasure.value);
    if w != {} {
      assert forall a :: a in w ==> a in s.clients && s.clients[a].online && r.clients[a].name == s.clients[a].name;
      AddWinsOnce(s.scores, r.clients, w);
      assert r.scores == AddWins(s.scores, r.clients, w);
    }
  }

  // ---------------------------------------------------------------------
  // Scenarios of the login, move and hint commands
  // ---------------------------------------------------------------------

  /** Logging in again under one's own name, while online, is refused as a name in use. */
  lemma ReloginRefused(s: Server, a: Addr)
    requires WellFormed(s) && a in s.clients && s.clients[a].online
    ensures var n := s.clients[a].name.value;
      DoLogin(s, a, n) == Handled(s, [ToPeer(a, NameInUse(n))])
  {
    var n := s.clients[a].name.value;
    assert s.clients[a].name == Some(n);
  }

  /** Once its holder logs out, a name can be taken by another peer. */
  lemma NameFreedByLogout(s: Server, a: Addr, b: Addr)
    requires WellFormed(s) && a in s.clients && b in s.clients && a != b && s.clients[a].online
    ensures var n := s.clients[a].name.value;
      var s1 := DoLogout(s, a).server;
      var s2 := DoLogin(s1, b, n).server;
      s2.clients[b].online && s2.clients[b].name == Some(n)
  {
    var n := s.clients[a].name.value;
    var s1 := DoLogout(s, a).server;
    assert !NameTaken(s1, n) by {
      forall c | c in s1.clients && s1.clients[c].online ensures s1.clients[c].name != Some(n) {
        assert c != a;
        assert s.clients[c].online;
      }
    }
  }

  /** One text `text` handed to the command handler on behalf of `from`. */
  datatype Message = Message(from: Addr, text: string)

  /** The handler run on each message in turn, as the receive loop does between two rounds. */
  function HandleAll(s: Server, msgs: seq<Message>): (r: Server)
    decreases |msgs|
  {
    if |msgs| == 0 then s else HandleAll(Handle(s, msgs[0].from, msgs[0].text).server, msgs[1..])
  }

  /**
   * A stored move only counts at resolution: across any run of messages
   * between two rounds in which nobody logs in, no known player changes
   * position and no score changes.
   */
  lemma {:induction false} CommandsDoNotMove(s: Server, msgs: seq<Message>)
    requires forall i :: 0 <= i < |msgs| ==> !ParseCommand(msgs[i].text).Login?
    ensures var r := HandleAll(s, msgs);
      && s.clients.Keys <= r.clients.Keys
      && (forall b :: b in s.clients ==> r.clients[b].pos == s.clients[b].pos)
      && r.scores == s.scores
    decreases |msgs|
  {
    if |msgs| > 0 {
      var s1 := Handle(s, msgs[0].from, msgs[0].text).server;
      HandleKeepsPositions(s, msgs[0].from, msgs[0].text);
      var rest := msgs[1..];
      assert forall i :: 0 <= i < |rest| ==> rest[i] == msgs[i + 1];
      CommandsDoNotMove(s1, rest);
    }
  }

  /** One non-login message keeps every known position and the scores. */
  lemma HandleKeepsPositions(s: Server, a: Addr, msg: string)
    requires !ParseCommand(msg).Login?
    ensures var r := Handle(s, a, msg).server;
      && s.clients.Keys <= r.clients.Keys
      && (forall b :: b in s.clients ==> r.clients[b].pos == s.clients[b].pos)
      && r.scores == s.scores
  {
  }

  /** The latest `move` of a round is the one resolved. */
  lemma LatestMoveWins(s: Server, a: Addr, d1: string, d2: string)
    requires a in s.clients && s.clients[a].online
    ensures var s2 := DoMove(DoMove(s, a, d1).server, a, d2).server;
      s2.clients[a].lastCommand == Some(d2) && Outcomes(s2)[a] == MoveFrom(s.clients[a].pos, d2)
  {
  }

  /** A hint asked before the first round still spends the hint. */
  lemma HintSpentWithoutGame(s: Server, a: Addr)
    requires a in s.clients && s.clients[a].online && !s.clients[a].hintUsed && s.treasure.None?
    ensures var r := DoHelp(s, a, HintHelp);
      r.out == [ToPeer(a, NoGame)] && r.server.clients[a].hintUsed
      && DoHelp(r.server, a, HintHelp).out == [ToPeer(a, HelpAlreadyUsed(HintHelp))]
  {
  }
}

=== FILE: text.dfy ===
/**
 * The pieces of Python's `str`/`bytes` behaviour the protocol relies on:
 * `str(n)` and `int(s)` for sequence numbers, and `strip`, `split`,
 * `" ".join`, `lower` and `startswith` for the text commands.
 *
 * Whitespace is the ASCII whitespace set and `Lower` folds ASCII letters
 * only; both are narrower than Python's Unicode-aware versions.
 */
module Text {
  import opened Common

  predicate IsDigit(c: char) {
    '0' <= c <= '9'
  }

  function DigitValue(c: char): (d: nat)
    requires IsDigit(c)
    ensures d < 10
  {
    (c as int) - ('0' as int)
  }

  function DigitChar(d: nat): (c: char)
    requires d < 10
    ensures IsDigit(c) && DigitValue(c) == d
  {
    (('0' as int) + d) as char
  }

  predicate AllDigits(s: string) {
    forall i :: 0 <= i < |s| ==> IsDigit(s[i])
  }

  /** `str(n)` for a non-negative integer: its decimal digits, no sign, no padding. */
  function Decimal(n: nat): (s: string)
    ensures |s| >= 1 && AllDigits(s)
  {
    if n < 10 then [DigitChar(n)] else Decimal(n / 10) + [DigitChar(n % 10)]
  }

  /** The number a non-empty run of decimal digits denotes (leading zeros allowed). */
  function DigitsValue(s: string): nat
    requires AllDigits(s)
  {
    if |s| == 0 then 0 else DigitsValue(s[..|s| - 1]) * 10 + DigitValue(s[|s| - 1])
  }

  /**
   * `int(s)` restricted to plain decimal digit strings: the value when `s`
   * is a non-empty run of digits, and `None` where Python raises `ValueError`.
   */
  function ParseDecimal(s: string): (r: Option<nat>)
    ensures r.Some? <==> |s| > 0 && AllDigits(s)
  {
    if |s| > 0 && AllDigits(s) then Some(DigitsValue(s)) else None
  }

  /** `int(str(n)) == n`. */
  lemma {:induction false} DecimalRoundTrip(n: nat)
    ensures ParseDecimal(Decimal(n)) == Some(n)
    decreases n
  {
    if n >= 10 {
      var s := Decimal(n);
      DecimalRoundTrip(n / 10);
      assert s[..|s| - 1] == Decimal(n / 10);
      assert DigitsValue(s) == (n / 10) * 10 + n % 10;
    }
  }

  /** The characters Python's argument-less `split()` and `strip()` treat as blanks (ASCII subset). */
  predicate IsSpace(c: char) {
    c == ' ' || c == '\t' || c == '\n' || c == '\r' || c as int == 11 || c as int == 12
  }

  /** A word as `split()` yields it: non-empty and free of blanks. */
  predicate IsWord(w: string) {
    |w| > 0 && forall i :: 0 <= i < |w| ==> !IsSpace(w[i])
  }

  /** The first index at or after `i` that holds a blank, or `|s|`. */
  function WordEnd(s: string, i: nat): (k: nat)
    requires i <= |s|
    ensures i <= k <= |s|
    ensures forall j :: i <= j < k ==> !IsSpace(s[j])
    ensures k < |s| ==> IsSpace(s[k])
    decreases |s| - i
  {
    if i == |s| || IsSpace(s[i]) then i else WordEnd(s, i + 1)
  }

  /** `s.split()`: the maximal blank-free runs of `s`, in order. */
  function Words(s: string): (ws: seq<string>)
    ensures forall i :: 0 <= i < |ws| ==> IsWord(ws[i])
    decreases |s|
  {
    if |s| == 0 then []
    else if IsSpace(s[0]) then Words(s[1..])
    else
      var k := WordEnd(s, 0);
      [s[..k]] + Words(s[k..])
  }

  /** `" ".join(ws)`. */
  function Join(ws: seq<string>): string
  {
    if |ws| == 0 then ""
    else if |ws| == 1 then ws[0]
    else ws[0] + " " + Join(ws[1..])
  }

  /** Joining words gives a text that begins with the first word's first character and ends with the last word's last. */
  lemma {:induction false} JoinEnds(ws: seq<string>)
    requires |ws| > 0 && forall i :: 0 <= i < |ws| ==> IsWord(ws[i])
    ensures |Join(ws)| > 0
    ensures IsWord(ws[0]) && Join(ws)[0] == ws[0][0]
    ensures IsWord(ws[|ws| - 1]) && Join(ws)[|Join(ws)| - 1] == ws[|ws| - 1][|ws[|ws| - 1]| - 1]
  {
    if |ws| > 1 {
      JoinEnds(ws[1..]);
      var rest := Join(ws[1..]);
      assert Join(ws) == ws[0] + " " + rest;
      assert ws[1..][|ws[1..]| - 1] == ws[|ws| - 1];
    }
  }

  function TrimStart(s: string): (t: string)
    ensures |t| <= |s| && t == s[|s| - |t|..]
    ensures |t| > 0 ==> !IsSpace(t[0])
  {
    if |s| > 0 && IsSpace(s[0]) then TrimStart(s[1..]) else s
  }

  function TrimEnd(s: string): (t: string)
    ensures |t| <= |s| && t == s[..|t|]
    ensures |t| > 0 ==> !IsSpace(t[|t| - 1])
    ensures |s| > 0 && !IsSpace(s[0]) ==> |t| > 0
  {
    if |s| > 0 && IsSpace(s[|s| - 1]) then TrimEnd(s[..|s| - 1]) else s
  }

  /** A text that starts with a non-blank keeps its first character through `strip()`. */
  lemma StripKeepsFirst(s: string)
    requires |s| > 0 && !IsSpace(s[0])
    ensures |Strip(s)| > 0 && Strip(s)[0] == s[0]
  {
  }

  /** `s.strip()`. */
  function Strip(s: string): string
  {
    TrimEnd(TrimStart(s))
  }

  /** A text that neither starts nor ends with a blank is its own `strip()`. */
  lemma StripUnpadded(s: string)
    requires |s| > 0 && !IsSpace(s[0]) && !IsSpace(s[|s| - 1])
    ensures Strip(s) == s
  {
    assert TrimStart(s) == s;
  }

  /** `" ".join(words).strip()` changes nothing and is never empty when there is at least one word. */
  lemma JoinedWordsAreStripped(ws: seq<string>)
    requires |ws| > 0 && forall i :: 0 <= i < |ws| ==> IsWord(ws[i])
    ensures Strip(Join(ws)) == Join(ws) && |Join(ws)| > 0
  {
    JoinEnds(ws);
    var last := ws[|ws| - 1];
    assert !IsSpace(last[|last| - 1]);
    assert !IsSpace(ws[0][0]);
  }

  function LowerChar(c: char): char
  {
    if 'A' <= c <= 'Z' then (c as int + 32) as char else c
  }

  /** `s.lower()` on the ASCII letters. */
  function Lower(s: string): (t: string)
    ensures |t| == |s|
    ensures forall i :: 0 <= i < |s| ==> t[i] == LowerChar(s[i])
  {
    if |s| == 0 then "" else [LowerChar(s[0])] + Lower(s[1..])
  }

  lemma LowerIdempotent(s: string)
    ensures Lower(Lower(s)) == Lower(s)
  {
  }

  /** No upper-case ASCII letter, stated recursively so that it can be checked on literals. */
  predicate NoUpper(s: string) {
    |s| == 0 || (!('A' <= s[0] <= 'Z') && NoUpper(s[1..]))
  }

  lemma {:induction false} NoUpperIsLower(s: string)
    requires NoUpper(s)
    ensures Lower(s) == s
  {
    if |s| > 0 {
      NoUpperIsLower(s[1..]);
    }
  }

  lemma {:induction false} NoUpperConcat(a: string, b: string)
    requires NoUpper(a) && NoUpper(b)
    ensures NoUpper(a + b)
  {
    if |a| > 0 {
      NoUpperConcat(a[1..], b);
      assert (a + b)[0] == a[0] && (a + b)[1..] == a[1..] + b;
    } else {
      assert a + b == b;
    }
  }

  /** A text with no upper-case letter and no blank at either end is unchanged by `strip().lower()`. */
  lemma Canonical(s: string)
    requires |s| > 0 && !IsSpace(s[0]) && !IsSpace(s[|s| - 1]) && NoUpper(s)
    ensures Lower(Strip(s)) == s
  {
    StripUnpadded(s);
    NoUpperIsLower(s);
  }

  /** Lower-casing keeps a word a word. */
  lemma LowerKeepsWord(w: string)
    requires IsWord(w)
    ensures IsWord(Lower(w))
  {
  }

  /** A blank-free, non-empty text, stated recursively so that it can be checked on literals. */
  predicate NoBlanks(s: string) {
    |s| == 0 || (!IsSpace(s[0]) && NoBlanks(s[1..]))
  }

  lemma {:induction false} NoBlanksIsWord(s: string)
    requires |s| > 0 && NoBlanks(s)
    ensures IsWord(s)
  {
    if |s| > 1 {
      NoBlanksIsWord(s[1..]);
      forall i | 0 <= i < |s| ensures !IsSpace(s[i]) {
        if i > 0 { assert s[i] == s[1..][i - 1]; }
      }
    }
  }

  /** A non-empty text with no blank and no upper-case letter is a word that `lower()` leaves alone. */
  lemma LowerWord(w: string)
    requires |w| > 0 && NoBlanks(w) && NoUpper(w)
    ensures IsWord(w) && Lower(w) == w
  {
    NoBlanksIsWord(w);
    NoUpperIsLower(w);
  }

  /** A word followed by a blank (or by nothing) is the first word `split()` reports. */
  lemma WordsAfterWord(w: string, rest: string)
    requires IsWord(w) && (|rest| == 0 || IsSpace(rest[0]))
    ensures Words(w + rest) == [w] + Words(rest)
  {
    var s := w + rest;
    var k := WordEnd(s, 0);
    assert forall j :: 0 <= j < |w| ==> s[j] == w[j] && !IsSpace(s[j]);
    assert |w| < |s| ==> s[|w|] == rest[0] && IsSpace(s[|w|]);
    assert k == |w|;
    assert s[0] == w[0];
    assert s[..k] == w && s[k..] == rest;
  }

  /** `split()` undoes `" ".join` of words. */
  lemma {:induction false} WordsOfJoin(ws: seq<string>)
    requires forall i :: 0 <= i < |ws| ==> IsWord(ws[i])
    ensures Words(Join(ws)) == ws
  {
    if |ws| == 1 {
      WordsAfterWord(ws[0], "");
      assert ws[0] + "" == ws[0];
    } else if |ws| > 1 {
      var t := Join(ws[1..]);
      assert Join(ws) == ws[0] + (" " + t);
      WordsAfterWord(ws[0], " " + t);
      assert (" " + t)[1..] == t;
      WordsOfJoin(ws[1..]);
    }
  }

  /** `" ".join(ws).strip().split()` is `ws` again for a non-empty list of words. */
  lemma {:induction false} SplitJoin(ws: seq<string>)
    requires |ws| > 0 && forall i :: 0 <= i < |ws| ==> IsWord(ws[i])
    ensures Words(Strip(Join(ws))) == ws
  {
    JoinedWordsAreStripped(ws);
    WordsOfJoin(ws);
  }

  predicate StartsWith(s: string, prefix: string) {
    |prefix| <= |s| && s[..|prefix|] == prefix
  }

  lemma StartsWithAppend(a: string, b: string)
    ensures StartsWith(a + b, a)
  {
    assert (a + b)[..|a|] == a;
  }

  lemma StartsWithTrans(a: string, b: string, c: string)
    requires StartsWith(b, a) && StartsWith(c, b)
    ensures StartsWith(c, a)
  {
    assert c[..|a|] == c[..|b|][..|a|];
  }
}
